=== FILE: README.md ===
# Tree_Bot core, modelled in Dafny

Tree_Bot prepares satellite imagery for tree and object detection, then trains
YOLO detectors on it. This project models the parts of its pipeline that are
plain logic once I/O is stripped away. Every operation is a pure function over
immutable values, and the properties the code promises are proved about
those functions.

- **Blocks** (`blocks.dfy`). `chop_to_blocks` tiles an H×W×C image into
  h×w×C blocks and drops the rows and columns that do not fill a whole block.
  `as_batch` flattens the block grid row by row into a batch, either a numpy
  array or a Python list.
- **Labels** (`labels.dfy`). These are the two class-to-id tables, one for
  patch classification and one for object detection, and `ids_to_classes`,
  which maps ids back to labels. A table is an ordered list of pairs because
  Python dictionaries iterate in insertion order.
- **Paths** (`paths.dfy`). `get_file_name_from_path` is `os.path.basename`
  followed by `os.path.splitext`, including the rule that leading dots of a
  file name never start an extension.
- **Images** (`images.dfy`). This covers `atleast_list`, the `data_is_ok`
  validator, and the id state of `SatelliteImage`. The validator's exceptions
  are part of its result.
- **Training** (`training.dfy`). This is the shared logic of the two training
  scripts:
  - the 80/20 split of the shuffled training images when there is no
    validation folder;
  - the check of configured labels against the labels seen in the
    annotations;
  - the run summary line;
  - the dump of the configuration into the per-run log file.
- **BuildPlan** (`buildplan.dfy`). `build_tif_datasets.main` is modelled as
  the ordered list of actions it performs: an optional confirmation prompt,
  then the clean and build steps for each split. A small state machine over
  the split directories runs that list.
- **Outcomes** (`outcomes.dfy`). These are the `Option` and `Result` types,
  plus the exceptions the modelled code can raise.

Randomness, existence checks on the file system, the clock, and the results
of the detector are parameters of the model:
- The permutation produced by `np.random.shuffle` is an input.
- The results of `os.path.exists` are booleans.
- `datestr` is an input.
- `mAP` and `ave_pred` are opaque strings.

The dataset builder's `main` builds the validation split even when the
training split is not requested, and the model does the same. `main` performs
no check that the training, validation and prediction regions are disjoint;
regions are not part of this model.

## Model

| member | source | states |
|---|---|---|
| Blocks.Crop | src/preprocess/clean_dstl/utils.py:196-203 | cropping to the largest whole number of blocks keeps the top-left region pixel for pixel, with the channel count unchanged |
| Blocks.BlockAt | src/preprocess/clean_dstl/utils.py:201-205 | block (j, i) is the h×w window whose corner is at row j·h and column i·w |
| Blocks.ChopToBlocks | src/preprocess/clean_dstl/utils.py:178-205 | succeeds exactly when the block's channel count equals the image's and the block dimensions are positive; a channel mismatch is the assertion failure; on success the grid has floor(H/h) rows of floor(W/w) blocks, and block (j, i) at offset (a, c) is pixel (j·h+a, i·w+c) |
| Blocks.BlockPixelsDisjoint | src/preprocess/clean_dstl/utils.py:196-205 | different (block, offset) pairs address different pixels, and every addressed pixel lies inside the cropped region |
| Blocks.AssembledPixel | src/preprocess/clean_dstl/utils.py:201-205 | each pixel of the cropped region is recovered from the block that covers it |
| Blocks.ChopThenAssemble | src/preprocess/clean_dstl/utils.py:196-205 | putting the blocks back together yields exactly the cropped image, so trailing rows and columns are dropped and nothing is padded |
| Blocks.Flatten | src/preprocess/clean_dstl/utils.py:227 | the reshape of the block grid into a batch holds one entry per block, rows times blocks per row |
| Blocks.FlattenAt | src/preprocess/clean_dstl/utils.py:227 | the reshape puts block (j, i) at batch position j·ni+i |
| Blocks.FlattenEntry | src/preprocess/clean_dstl/utils.py:227 | batch position k holds block (k div ni, k mod ni) |
| Blocks.FlattenBlockGrid | src/preprocess/clean_dstl/utils.py:224-227 | every entry of the flattened grid is the image block for its row-major position |
| Blocks.AsBatch | src/preprocess/clean_dstl/utils.py:208-232 | fails exactly when chop_to_blocks fails, with the same error; otherwise it holds floor(H/h)·floor(W/w) blocks in row-major block order, in a list exactly when as_list is set |
| Blocks.AsBatchContainerOnly | src/preprocess/clean_dstl/utils.py:229-232 | as_list changes the container and never the blocks |
| Labels.TablesInjective | src/preprocess/clean_dstl/utils.py:17-34 | no label and no id occurs twice in either table |
| Labels.TableFor | src/preprocess/clean_dstl/utils.py:128-133 | 'patch' and 'obj' select a one-to-one table; any other use raises |
| Labels.LabelsWithId | src/preprocess/clean_dstl/utils.py:137-139 | the inner loop emits only labels whose table id equals the id |
| Labels.LabelsWithIdInjective | src/preprocess/clean_dstl/utils.py:128-139 | with a one-to-one table a known id yields exactly its own label, and an unknown id yields nothing |
| Labels.CollectLabels | src/preprocess/clean_dstl/utils.py:135-141 | every emitted label belongs to the table |
| Labels.IdsToClasses | src/preprocess/clean_dstl/utils.py:116-141 | raises exactly for a use other than 'patch' or 'obj'; otherwise returns labels of the selected table, never more labels than ids |
| Labels.CollectLabelsAppend | src/preprocess/clean_dstl/utils.py:135-141 | input order is preserved: converting a concatenation of ids converts each part in turn |
| Labels.IdsToClassesSingle | src/preprocess/clean_dstl/utils.py:128-141 | a single known id becomes its unique label and a single unknown id is skipped |
| Labels.CollectLabelsShorter | src/preprocess/clean_dstl/utils.py:135-141 | with a one-to-one table the output is no longer than the input |
| Labels.IdOf | src/preprocess/clean_dstl/utils.py:17-34 | the forward lookup gives the id the table pairs with a label |
| Labels.LabelOfOwnId | src/preprocess/clean_dstl/utils.py:135-139 | in a one-to-one table the id of a label maps back to that label alone |
| Labels.CollectOwnLabels | src/preprocess/clean_dstl/utils.py:135-141 | ids that each name exactly one label convert to those labels, in order |
| Labels.LabelsRoundTrip | src/preprocess/clean_dstl/utils.py:135-141 | converting known labels to ids and back returns the labels |
| Labels.IdsToClassesRoundTrip | src/preprocess/clean_dstl/utils.py:116-141 | the same round trip through ids_to_classes itself |
| Paths.RFind | src/preprocess/clean_dstl/utils.py:248 | finds the last occurrence of a character, or -1 when there is none |
| Paths.Basename | src/preprocess/clean_dstl/utils.py:248 | the basename is the suffix after the last '/', and it contains no '/' |
| Paths.ExtensionShape | src/preprocess/clean_dstl/utils.py:248 | when the last dot lies in the last path component, the text from it on starts with that dot and holds no other dot and no '/' |
| Paths.SplitExt | src/preprocess/clean_dstl/utils.py:248 | root plus extension is the whole path; the extension is empty or a single dot-led component with no further dot; an extension is split off exactly when the last dot comes after the last '/' and some non-dot character of the last component precedes it, and then the root ends just before that dot |
| Paths.FileNameFromPath | src/preprocess/clean_dstl/utils.py:235-248 | the file name is a prefix of the basename and contains no '/' |
| Paths.FileNameDropsFinalExtension | src/preprocess/clean_dstl/utils.py:248 | what is removed begins at the final dot, holds no other dot, and follows a non-dot character |
| Paths.FileNameKeepsWholeComponent | src/preprocess/clean_dstl/utils.py:248 | the whole basename is kept exactly when it has no dot after a non-dot character |
| Paths.FileNameAndExtension | src/preprocess/clean_dstl/utils.py:248 | the file name followed by the extension is the basename |
| Paths.DocumentedExample | src/preprocess/clean_dstl/utils.py:238 | '/path/to/file/name.ext' gives 'name' |
| Paths.DotFileExample | src/preprocess/clean_dstl/utils.py:248 | a dot file such as '.bashrc' keeps its name |
| Paths.DoubleExtensionExample | src/preprocess/clean_dstl/utils.py:248 | only the final extension is removed: 'archive.tar.gz' gives 'archive.tar' |
| Images.AtleastList | src/preprocess/clean_dstl/utils.py:251-266 | the result is always a list; a list is returned unchanged and anything else is wrapped as its single item |
| Images.AtleastListIdempotent | src/preprocess/clean_dstl/utils.py:263-266 | applying it twice equals applying it once |
| Images.Max | src/preprocess/clean_dstl/utils.py:285 | data.max() is an element no smaller than any other |
| Images.Min | src/preprocess/clean_dstl/utils.py:286 | data.min() is an element no larger than any other |
| Images.DataIsOk | src/preprocess/clean_dstl/utils.py:269-303 | returns true exactly for a non-empty uint8 array whose values lie in [0, 255] with some value above 1 and whose shape fits the use; with raise_exception a failed check raises rather than returning false; an empty uint8 array raises from max() whatever the flag |
| Images.NewSatelliteImage | src/preprocess/clean_dstl/utils.py:49-66 | the image is built, with the given data and id, unless data_is_ok raises; a false result is ignored |
| Images.ImageId | src/preprocess/clean_dstl/utils.py:74-85 | raises while no id is set and otherwise returns the stored id |
| Images.SetImageId | src/preprocess/clean_dstl/utils.py:87-100 | setting the id leaves the data alone |
| Images.ImageIdAfterSet | src/preprocess/clean_dstl/utils.py:82-100 | the id read back is the last one set, and setting None makes reading raise again |
| Training.SplitIndex | src/models/train_yolo.py:79 | the split index is floor(0.8·n) |
| Training.SplitShuffled | src/models/train_yolo.py:79-82 | the training part followed by the validation part is the shuffled list, and the training part has floor(0.8·n) items |
| Training.SplitIsPartition | src/models/train_yolo.py:79-82 | the two parts are a positional partition: together they hold each image exactly as often as the shuffled list, and validation gets at least a fifth |
| Training.ChooseImageSets | src/models/train_yolo.py:70-82 | an existing validation folder leaves the training images untouched; otherwise the shuffled images are split, and no image is lost or invented |
| Training.DistinctCount | src/models/train_yolo.py:85-92 | a list has as many distinct labels as entries exactly when it has no duplicates |
| Training.SubsetSmaller | src/models/train_yolo.py:85-92 | the overlap, as a subset of the configured labels, is strictly smaller when it misses any of them |
| Training.CheckLabels | src/models/train_yolo.py:84-98 | with configured labels, the run aborts exactly when one was never seen or one is listed twice, and otherwise keeps the configured list; with none, it trains on the seen labels |
| Training.YoloSummaryLine | src/models/train_yolo.py:148-149 | the line is the date, ' Model: ', the backend, ' mAP: ', the mAP text, 'ave_pred: ' with no space before it, the ave_pred text and a newline, each field at its offset; it is 25 characters longer than its parts and ends in its only newline |
| Training.KerasSummaryLine | src/models/keras_yolo2/train.py:109-110 | the line is the date, ' Model: ', the backend, ' mAP:' with no trailing space, the mAP text and a newline, each field at its offset; it is 14 characters longer than its parts and ends in its only newline |
| Training.SummaryLine | src/models/train_yolo.py:148-149 | each script writes its own summary line: train_yolo.py the one with ave_pred, keras_yolo2/train.py the one without |
| Training.ConfigDump | src/models/train_yolo.py:157-161 | the dump writes each section name on its own line followed by its entries; ConfigDumpIsLines and ConfigDumpReadsBack state its shape and its inverse |
| Training.EntryDump | src/models/train_yolo.py:159-161 | the inner loop writes one 'key: value' line per entry; EntryDumpIsJoin states it as a join of EntryLines |
| Training.EntryLines | src/models/train_yolo.py:159-161 | one 'key: value' line per entry |
| Training.EntryDumpIsJoin | src/models/train_yolo.py:159-161 | the entry writes equal the newline-joined entry lines |
| Training.JoinLinesAppend | src/models/train_yolo.py:157-161 | successive writes concatenate |
| Training.ConfigDumpIsLines | src/models/train_yolo.py:157-161 | the dump is the newline-joined section and entry lines, one line per section plus one per entry |
| Training.Find | src/models/train_yolo.py:157-161 | locates the first newline, which reading the run file back relies on |
| Training.SplitJoinLines | src/models/train_yolo.py:157-161 | lines without a newline split back out of their join unchanged |
| Training.ConfigLinesNoNewline | src/models/train_yolo.py:157-161 | newline-free names, keys and values give newline-free lines |
| Training.ConfigDumpReadsBack | src/models/train_yolo.py:157-161 | splitting the dump at newlines gives back the sections in order, each followed by its entries in order |
| Training.Lookup | src/models/train_yolo.py:84-98 | reading a key finds a value exactly when the section holds that key, and the value is the one stored with it |
| Training.Assign | src/models/train_yolo.py:98 | assigning to a dictionary keeps every existing key in its place and either keeps the length or appends the new pair at the end |
| Training.LookupAfterAssign | src/models/train_yolo.py:98 | after the assignment the key reads as the new value and every other key reads as before |
| Training.FindSection | src/models/train_yolo.py:157-161 | a section is found exactly when the configuration has one of that name, and the entries returned are those of the first section with that name |
| Training.FirstLine | src/models/train_yolo.py:157-161 | a newline-free line followed by its newline is read back first, and reading resumes right after that newline |
| Training.SetModelLabels | src/models/train_yolo.py:96-98 | the fallback keeps the sections, their number and their order |
| Training.SetModelLabelsEffect | src/models/train_yolo.py:96-98 | after the fallback the model section's labels read as the new text, its other keys and every other section read as before |
| Training.DumpShowsTrainedLabels | src/models/train_yolo.py:96-161 | with no configured labels the dumped model section lists the seen labels; with configured labels the configuration is dumped as loaded |
| Training.DumpedConfig | src/models/train_yolo.py:96-98 | the configuration as dumped keeps the loaded sections, their number and their names; DumpShowsTrainedLabels states what the fallback changes |
| Training.ProbedFolder | src/models/train_yolo.py:54-70 | train_yolo.py tests the working directory, a '/' and the configured validation folder; keras_yolo2/train.py tests the configured folder as given |
| Training.ProbedFoldersDiffer | src/models/train_yolo.py:54-70 | for the same configured folder the two scripts test different paths, the train_yolo.py one always longer |
| Training.TrainingRun | src/models/train_yolo.py:63-161 | the run stops before the detector is built exactly when the label check fails; otherwise it uses the chosen image sets, trains on the chosen labels, loads weights exactly when the file exists, writes the summary line, and writes the same line followed by the dump of the configuration after the fallback to the run file, keeping every image |
| Training.ScriptsAgree | src/models/keras_yolo2/train.py:42-123 | given the same existence results and parsed annotations, the two training scripts make the same decisions and write the same configuration dump after their summary lines; only the summary text differs |
| BuildPlan.Mask | src/preprocess/build_tif_datasets.py:61-65 | boolean-mask indexing keeps every name whose flag is set and nothing else, and never lengthens the list |
| BuildPlan.MaskAppend | src/preprocess/build_tif_datasets.py:61-65 | masking keeps order and multiplicity: masking a concatenation concatenates the masked parts |
| BuildPlan.MaskAllDirs | src/preprocess/build_tif_datasets.py:61-65 | masking the three directory names keeps their order train, test, predict |
| BuildPlan.Announced | src/preprocess/build_tif_datasets.py:61-65 | the announced list names each requested split once, in fixed order, and shows valid as 'test' |
| BuildPlan.StepsFor | src/preprocess/build_tif_datasets.py:70-84 | a split's block is empty exactly when the split is not requested, has two steps exactly when erase is also set, and always ends with the build |
| BuildPlan.Preamble | src/preprocess/build_tif_datasets.py:66-69 | the warning step never cleans or builds anything |
| BuildPlan.Plan | src/preprocess/build_tif_datasets.py:66-84 | the prompt is issued exactly when warnings and erase are both set, first and never again, announcing the requested directories; every clean is immediately followed by the build of the same split; splits are handled in the fixed order train, valid, predict |
| BuildPlan.OwnStepsCount | src/preprocess/build_tif_datasets.py:70-84 | a split's own block builds it once when it is requested, and cleans it once when erase is also set |
| BuildPlan.OtherStepsCount | src/preprocess/build_tif_datasets.py:70-84 | a split's block never cleans or builds another split |
| BuildPlan.StepsCount | src/preprocess/build_tif_datasets.py:70-84 | one split's steps never touch another split |
| BuildPlan.PlanCount | src/preprocess/build_tif_datasets.py:66-84 | every clean or build in the plan comes from one of the three split blocks |
| BuildPlan.BodyCount | src/preprocess/build_tif_datasets.py:70-84 | an action occurs in the three split blocks as often as in the three blocks counted separately |
| BuildPlan.PreambleCount | src/preprocess/build_tif_datasets.py:66-84 | the warning step adds no clean or build to the plan |
| BuildPlan.BodySplitOnce | src/preprocess/build_tif_datasets.py:70-84 | the split blocks build each requested split once, clean it once when erase is set, and leave an unrequested split alone |
| BuildPlan.EachSplitOnce | src/preprocess/build_tif_datasets.py:70-84 | a requested split is built exactly once and cleaned exactly once when erase is set; an unrequested split is never cleaned or built |
| BuildPlan.Body | src/preprocess/build_tif_datasets.py:70-84 | the train, valid and predict blocks run one after another in that order; BodyShape states the shape of the whole |
| BuildPlan.StepsShape | src/preprocess/build_tif_datasets.py:70-84 | a split's block mentions only that split, and a clean there is followed by its build |
| BuildPlan.BodyShape | src/preprocess/build_tif_datasets.py:70-84 | the clean and build steps hold no prompt, follow every clean by its build, and keep split order |
| BuildPlan.ValidWithoutTrain | src/preprocess/build_tif_datasets.py:75-78 | the validation split is built even when the training split is not requested |
| BuildPlan.RunSteps | src/preprocess/build_tif_datasets.py:70-84 | running one split's steps settles that split and leaves the others alone |
| BuildPlan.PreambleRun | src/preprocess/build_tif_datasets.py:66-69 | the warning step changes no directory and only records whether the user was asked to confirm |
| BuildPlan.BodyRun | src/preprocess/build_tif_datasets.py:70-84 | from untouched directories the split blocks build exactly the requested splits, after a clean exactly when erase is set, and leave the confirmation alone |
| BuildPlan.PlanOutcome | src/preprocess/build_tif_datasets.py:61-84 | after the plan runs, each requested split is built, after a clean exactly when erase is set; every other split is untouched; the run was confirmed exactly when the prompt was shown |

## Left out

- `SatelliteTif` is not part of this model. It is the raster class that reads the tif, cuts windows and cleans or builds the tile directories, and its source is not available. Its `clean_*` and `build_*` calls appear only as opaque `Clean` and `Build` actions.
- `image_save_preprocessor` is not modelled. It relies on floating-point `math.log`, uint8 casts that wrap around, `grey2rgb` and a channel-order heuristic.
- The `_features` dictionary of `SatelliteImage` is not modelled, since nothing in the modelled code reads it.
- `SatelliteImage.show` and the pickle helpers are left out because they are display and file I/O.
- Logging, argparse, JSON loading, CUDA environment variables and every file write are left out. Only the text written to the run log files is modelled.
- The `input()` confirmation is modelled as a `Prompt` action, and the user's keystroke is not modelled.
- `np.random.shuffle` is not modelled. The shuffled list is an input, related to the training images only by holding the same multiset.
- `parse_annotation`, `YOLO(...)`, `load_weights` and `train` are foreign code. Their results are inputs: the parsed images, the seen labels, and the `mAP`/`ave_pred` text.
- Training.SplitIndex: computes floor(4n/5) in exact arithmetic rather than `int(0.8*n)` in floating point. The two agree as long as the rounding error of the double product stays below the gap of at least 0.2 between 0.8·n and the next integer, so there is no mismatch for any list shorter than 2·10⁶ images.
- Training.TrainingRun: `str()` of configuration values is an opaque string per entry. The empty-labels fallback is modelled: it stores `seenLabelsText`, an input standing for `str()` of the seen-label keys, under the model section's `labels` before the dump. Python's `dict_keys` repr itself is not modelled.
- Training.TrainingRun: `backend` and `configuredLabels` are inputs of their own. They are not read out of the configuration's model section, so the model does not tie them to the dumped entries. A configuration without a model section, on which the scripts fail with a `KeyError` long before the dump, is dumped unchanged.
- Training.TrainingRun: the log texts that differ between the two scripts apart from the summary line are not modelled. These are the "Using validation set" messages and the weight-loading messages.
- Blocks.ChopToBlocks: a block dimension of zero or below is reported as a single `InvalidBlockShape` error. numpy gets there by two routes. A zero dimension first raises a division-by-zero warning and then a `ValueError` from `view_as_blocks`. A negative dimension goes straight to that `ValueError`.
- Blocks.ChopToBlocks: blocks are stored as a two-dimensional grid. The extra singleton dimension that `view_as_blocks` adds along the channel axis is left out, since it always has length one.
- BuildPlan.Announced: the flags are booleans. numpy would treat integer flags as fancy indexing, which is not modelled.
- Training.ScriptsAgree: both scripts receive one existence result and one set of parsed annotations. In fact src/models/train_yolo.py:54-61 puts `os.getcwd() + '/'` in front of every configured folder while src/models/keras_yolo2/train.py:36-46 uses the folders as given. So with the same configuration the two scripts may see different folders, and one may split the training images while the other loads a validation folder. ProbedFoldersDiffer states that the paths differ; the file system that answers for them is not modelled.
- Training.ScriptsAgree: the model assumes that every configuration key both scripts read is present. Only src/models/train_yolo.py reads `model.freeze_backend` (line 107) and `model.iou_threshold` (line 135). Without either key it raises a KeyError after the label check and before either log file is written, while src/models/keras_yolo2/train.py trains and writes both logs.
- Training.TrainingRun: a configuration is a list of named sections of key/value pairs. It can hold duplicate section names and duplicate keys, which `json.load` never produces; SetModelLabels then updates only the first `model` section. A top-level value that is not a dictionary, on which the dump loop would raise a `TypeError`, cannot be represented.
- Paths.FileNameFromPath: only POSIX `posixpath` is modelled. Windows `ntpath`, which also splits on '\\' and after drive letters, is not.
- Images.DataIsOk: Python running with `-O` strips `assert` statements. Then `data_is_ok` returns true for every array, and the channel check of `chop_to_blocks` (Blocks.ChopToBlocks) disappears. The model follows the default interpreter, with assertions on.
- Images.DataIsOk: array values are integers. Only uint8 arrays get past the first check, and uint8 values are always integers.
- Images.DataIsOk: the shape and the values of an array are independent fields. An array whose shape is [400, 400, 3] can therefore hold no values and reach the `EmptyReduction` error. Nor does the type keep a uint8 array's values inside [0, 255]; the range check in `data_is_ok` is modelled instead.
- BuildPlan.Plan: the plan is the sequence of actions `main` attempts. An exception in a `clean_*` or `build_*` call, or an interrupted `input()`, stops `main` after a prefix of it. BuildPlan.PlanOutcome assumes every action returns.

=== FILE: blocks.dfy ===
/** Tiling of an image array into equal blocks (`chop_to_blocks`, `as_batch`).

    An image is a rows × cols × chans array. Tiling with an h × w × chans
    block shape keeps the leading floor(rows/h)·h rows and floor(cols/w)·w
    columns, drops the rest, and cuts what is kept into floor(rows/h) block
    rows of floor(cols/w) blocks each. `as_batch` then lists the blocks
    block-row by block-row.
 */
module Blocks {
  import opened Outcomes

  /** A dense rows × cols × chans array: `cells[r][c]` is the channel vector
      of pixel (r, c). */
  datatype Array3<T> = Array3(rows: nat, cols: nat, chans: nat, cells: seq<seq<seq<T>>>)
  {
    predicate Valid() {
      && |cells| == rows
      && (forall r | 0 <= r < rows :: |cells[r]| == cols)
      && (forall r, c | 0 <= r < rows && 0 <= c < cols :: |cells[r][c]| == chans)
    }
  }

  /** The `shape` argument: the dimensions of one block. Python passes any
      integers, so non-positive values are representable. */
  datatype BlockShape = BlockShape(rows: int, cols: int, chans: int)

  /** How `as_batch` hands the blocks back: a stacked numpy array, or a
      Python list of the same blocks (`as_list=True`). */
  datatype Container = NdArray | PyList

  datatype Batch<T> = Batch(container: Container, blocks: seq<Array3<T>>)

  // ---------------------------------------------------------------------
  // Integer facts about block coordinates

  lemma MulMonotone(a: nat, b: nat, c: nat)
    requires a <= b
    ensures a * c <= b * c
  {
    var d := b - a;
    assert b * c == a * c + d * c;
  }

  /** A coordinate inside block j of height h is j·h + a with 0 <= a < h,
      and that decomposition is unique. */
  lemma {:induction false} DivModUnique(j: nat, a: nat, h: nat)
    requires a < h
    ensures (j * h + a) / h == j
    ensures (j * h + a) % h == a
  {
    var x := j * h + a;
    var q, m := x / h, x % h;
    assert x == q * h + m;
    if q > j {
      MulMonotone(j + 1, q, h);
      assert false;
    } else if q < j {
      MulMonotone(q + 1, j, h);
      assert false;
    }
  }

  /** Block j of height h fits in n rows exactly when j < floor(n/h). */
  lemma BlockFits(j: nat, h: nat, n: nat)
    requires h > 0 && j < n / h
    ensures j * h + h <= n
  {
    MulMonotone(j + 1, n / h, h);
  }

  /** Quotient and remainder put back together give the dividend. */
  lemma DivModParts(k: nat, n: nat)
    requires n > 0
    ensures k == (k / n) * n + k % n && k % n < n
  {
  }

  /** A row above n·h lies in one of the first n block rows. */
  lemma BelowProduct(y: nat, h: nat, n: nat)
    requires h > 0 && y < n * h
    ensures y / h < n
  {
    if y / h >= n {
      MulMonotone(n, y / h, h);
      assert false;
    }
  }

  // ---------------------------------------------------------------------
  // Cropping and the blocks of an array

  /** `data[:rows, :cols, :]`: the leading rows × cols corner of `data`. */
  function Crop<T>(data: Array3<T>, rows: nat, cols: nat): (r: Array3<T>)
    requires data.Valid() && rows <= data.rows && cols <= data.cols
    ensures r.Valid() && r.rows == rows && r.cols == cols && r.chans == data.chans
    ensures forall y, x | 0 <= y < rows && 0 <= x < cols :: r.cells[y][x] == data.cells[y][x]
  {
    Array3(rows, cols, data.chans, seq(rows, y requires 0 <= y < rows => data.cells[y][..cols]))
  }

  /** `b` is the h × w window of `data` whose top-left pixel is (y0, x0):
      it lies inside `data` and its pixel (a, c) is pixel (y0 + a, x0 + c). */
  ghost predicate IsWindow<T>(data: Array3<T>, y0: nat, x0: nat, h: nat, w: nat, b: Array3<T>)
    requires data.Valid()
  {
    && b.Valid() && b.rows == h && b.cols == w && b.chans == data.chans
    && y0 + h <= data.rows && x0 + w <= data.cols
    && forall a, c | 0 <= a < h && 0 <= c < w :: b.cells[a][c] == data.cells[y0 + a][x0 + c]
  }

  /** `b` is block (j, i) of `data` for an h × w block shape: the window
      at (j·h, i·w). */
  ghost predicate IsBlock<T>(data: Array3<T>, h: nat, w: nat, j: nat, i: nat, b: Array3<T>)
    requires data.Valid()
  {
    IsWindow(data, j * h, i * w, h, w, b)
  }

  /** `blocks` is the floor(rows/h) × floor(cols/w) grid of blocks of `data`. */
  ghost predicate IsBlockGrid<T>(data: Array3<T>, h: nat, w: nat, blocks: seq<seq<Array3<T>>>)
    requires data.Valid() && h > 0 && w > 0
  {
    && |blocks| == data.rows / h
    && (forall j | 0 <= j < |blocks| :: |blocks[j]| == data.cols / w)
    && (forall j, i | 0 <= j < |blocks| && 0 <= i < |blocks[j]| :: IsBlock(data, h, w, j, i, blocks[j][i]))
  }

  function Window<T>(data: Array3<T>, y0: nat, x0: nat, h: nat, w: nat): (b: Array3<T>)
    requires data.Valid() && y0 + h <= data.rows && x0 + w <= data.cols
    ensures IsWindow(data, y0, x0, h, w, b)
  {
    Array3(h, w, data.chans,
      seq(h, a requires 0 <= a < h =>
        seq(w, c requires 0 <= c < w => data.cells[y0 + a][x0 + c])))
  }

  function BlockAt<T>(data: Array3<T>, h: nat, w: nat, j: nat, i: nat): (b: Array3<T>)
    requires data.Valid() && h > 0 && w > 0 && j < data.rows / h && i < data.cols / w
    ensures IsBlock(data, h, w, j, i, b)
  {
    BlockFits(j, h, data.rows);
    BlockFits(i, w, data.cols);
    Window(data, j * h, i * w, h, w)
  }

  /** `chop_to_blocks(data, shape)`. The source asserts that the block
      spans all channels; skimage's `view_as_blocks` then rejects a block
      shape with a non-positive entry. */
  function ChopToBlocks<T>(data: Array3<T>, shape: BlockShape): (r: Result<seq<seq<Array3<T>>>>)
    requires data.Valid()
    ensures r.Ok? <==> shape.chans == data.chans && shape.rows > 0 && shape.cols > 0 && shape.chans > 0
    ensures shape.chans != data.chans ==> r == Err(AssertionFailed)
    ensures r.Err? && shape.chans == data.chans ==> r == Err(InvalidBlockShape)
    ensures r.Ok? ==> IsBlockGrid(data, shape.rows, shape.cols, r.value)
  {
    if shape.chans != data.chans then Err(AssertionFailed)
    else if shape.rows <= 0 || shape.cols <= 0 || shape.chans <= 0 then Err(InvalidBlockShape)
    else
      var h: nat, w: nat := shape.rows, shape.cols;
      var nj, ni := data.rows / h, data.cols / w;
      Ok(seq(nj, j requires 0 <= j < nj =>
           seq(ni, i requires 0 <= i < ni => BlockAt(data, h, w, j, i))))
  }

  // ---------------------------------------------------------------------
  // The tiling is a bijection onto the cropped region

  /** Distinct block coordinates (block j, i; offset a, c) name distinct
      pixels of the source, all inside the cropped region: blocks never
      overlap and never reach the dropped margin. */
  lemma {:induction false} BlockPixelsDisjoint(h: nat, w: nat, nj: nat, ni: nat,
      j: nat, i: nat, a: nat, c: nat, j': nat, i': nat, a': nat, c': nat)
    requires j < nj && i < ni && a < h && c < w
    requires j' < nj && i' < ni && a' < h && c' < w
    ensures j * h + a < nj * h && i * w + c < ni * w
    ensures (j * h + a, i * w + c) == (j' * h + a', i' * w + c') <==> (j, i, a, c) == (j', i', a', c')
  {
    MulMonotone(j + 1, nj, h);
    MulMonotone(i + 1, ni, w);
    if j * h + a == j' * h + a' {
      DivModUnique(j, a, h);
      DivModUnique(j', a', h);
    }
    if i * w + c == i' * w + c' {
      DivModUnique(i, c, w);
      DivModUnique(i', c', w);
    }
  }

  /** Pixel (y, x) of a reassembled block grid: block (y/h, x/w) at
      offset (y%h, x%w). */
  function AssembledCell<T>(blocks: seq<seq<Array3<T>>>, h: nat, w: nat, ni: nat, chans: nat, y: nat, x: nat): (v: seq<T>)
    requires h > 0 && w > 0
    requires forall j | 0 <= j < |blocks| :: |blocks[j]| == ni
    requires forall j, i | 0 <= j < |blocks| && 0 <= i < ni ::
      blocks[j][i].Valid() && blocks[j][i].rows == h && blocks[j][i].cols == w && blocks[j][i].chans == chans
    requires y < |blocks| * h && x < ni * w
    ensures |v| == chans
  {
    BelowProduct(y, h, |blocks|);
    BelowProduct(x, w, ni);
    var j: nat, i: nat := y / h, x / w;
    var row := blocks[j];
    PixelOf(row[i], y % h, x % w)
  }

  /** The channel vector at offset (a, c) of one block. */
  function PixelOf<T>(b: Array3<T>, a: nat, c: nat): (v: seq<T>)
    requires b.Valid() && a < b.rows && c < b.cols
    ensures |v| == b.chans
  {
    b.cells[a][c]
  }

  /** Reassembles a block grid into one array (the inverse of the tiling). */
  function Assemble<T>(blocks: seq<seq<Array3<T>>>, h: nat, w: nat, ni: nat, chans: nat): (r: Array3<T>)
    requires h > 0 && w > 0
    requires forall j | 0 <= j < |blocks| :: |blocks[j]| == ni
    requires forall j, i | 0 <= j < |blocks| && 0 <= i < ni ::
      blocks[j][i].Valid() && blocks[j][i].rows == h && blocks[j][i].cols == w && blocks[j][i].chans == chans
    ensures r.Valid() && r.rows == |blocks| * h && r.cols == ni * w && r.chans == chans
  {
    var R, C := |blocks| * h, ni * w;
    Array3(R, C, chans,
      seq(R, y requires 0 <= y < R =>
        seq(C, x requires 0 <= x < C => AssembledCell(blocks, h, w, ni, chans, y, x))))
  }

  /** One pixel of the round trip below. */
  lemma AssembledPixel<T>(data: Array3<T>, h: nat, w: nat, blocks: seq<seq<Array3<T>>>, y: nat, x: nat)
    requires data.Valid() && h > 0 && w > 0 && IsBlockGrid(data, h, w, blocks)
    requires y < |blocks| * h && x < (data.cols / w) * w
    ensures y < data.rows && x < data.cols
    ensures Assemble(blocks, h, w, data.cols / w, data.chans).cells[y][x] == data.cells[y][x]
  {
    BelowProduct(y, h, |blocks|);
    BelowProduct(x, w, data.cols / w);
    var j, i := y / h, x / w;
    var b := blocks[j][i];
    assert IsBlock(data, h, w, j, i, b);
    assert y == j * h + y % h && x == i * w + x % w;
    assert b.cells[y % h][x % w] == data.cells[y][x];
  }

  /** Round trip: putting the blocks of `chop_to_blocks` back together
      gives exactly the cropped image, so every kept pixel is in some
      block and nothing is padded. */
  lemma ChopThenAssemble<T>(data: Array3<T>, shape: BlockShape)
    requires data.Valid() && ChopToBlocks(data, shape).Ok?
    ensures shape.rows > 0 && shape.cols > 0
    ensures (data.rows / shape.rows) * shape.rows <= data.rows
    ensures (data.cols / shape.cols) * shape.cols <= data.cols
    ensures Assemble(ChopToBlocks(data, shape).value, shape.rows, shape.cols, data.cols / shape.cols, data.chans)
         == Crop(data, (data.rows / shape.rows) * shape.rows, (data.cols / shape.cols) * shape.cols)
  {
    var h: nat, w: nat := shape.rows, shape.cols;
    var nj, ni := data.rows / h, data.cols / w;
    var blocks := ChopToBlocks(data, shape).value;
    var A := Assemble(blocks, h, w, ni, data.chans);
    var K := Crop(data, nj * h, ni * w);
    forall y | 0 <= y < nj * h
      ensures A.cells[y] == K.cells[y]
    {
      forall x | 0 <= x < ni * w
        ensures A.cells[y][x] == K.cells[y][x]
      {
        AssembledPixel(data, h, w, blocks, y, x);
      }
    }
  }

  // ---------------------------------------------------------------------
  // as_batch

  /** Concatenates equally long rows, row by row. */
  function Flatten<T>(rows: seq<seq<T>>, n: nat): (r: seq<T>)
    requires forall j | 0 <= j < |rows| :: |rows[j]| == n
    ensures |r| == |rows| * n
  {
    if |rows| == 0 then [] else rows[0] + Flatten(rows[1..], n)
  }

  /** Entry i of row j sits at position j·n + i of the flattening. */
  lemma {:induction false} FlattenAt<T>(rows: seq<seq<T>>, n: nat, j: nat, i: nat)
    requires forall j | 0 <= j < |rows| :: |rows[j]| == n
    requires j < |rows| && i < n
    ensures j * n + i < |Flatten(rows, n)| && Flatten(rows, n)[j * n + i] == rows[j][i]
    decreases j
  {
    if j > 0 {
      FlattenAt(rows[1..], n, j - 1, i);
      assert (j - 1) * n + i + n == j * n + i;
    }
  }

  /** Position k of the flattening holds entry k % n of row k / n. */
  lemma FlattenEntry<T>(rows: seq<seq<T>>, n: nat, k: nat)
    requires forall j | 0 <= j < |rows| :: |rows[j]| == n
    requires k < |Flatten(rows, n)|
    ensures n > 0 && k / n < |rows| && Flatten(rows, n)[k] == rows[k / n][k % n]
  {
    BelowProduct(k, n, |rows|);
    var j: nat, i: nat := k / n, k % n;
    DivModParts(k, n);
    FlattenAt(rows, n, j, i);
  }

  /** Flattening a block grid lists block (k / ni, k % ni) at position k. */
  lemma FlattenBlockGrid<T>(data: Array3<T>, h: nat, w: nat, ni: nat, blocks: seq<seq<Array3<T>>>)
    requires data.Valid() && h > 0 && w > 0 && ni == data.cols / w && IsBlockGrid(data, h, w, blocks)
    ensures forall k | 0 <= k < |Flatten(blocks, ni)| ::
      ni > 0 && IsBlock(data, h, w, k / ni, k % ni, Flatten(blocks, ni)[k])
  {
    forall k | 0 <= k < |Flatten(blocks, ni)|
      ensures ni > 0 && IsBlock(data, h, w, k / ni, k % ni, Flatten(blocks, ni)[k])
    {
      FlattenEntry(blocks, ni, k);
      var j, i := k / ni, k % ni;
      assert IsBlock(data, h, w, j, i, blocks[j][i]);
    }
  }

  /** `as_batch(img, shape, as_list)`: the blocks of `chop_to_blocks` in
      row-major block order, so entry k is block (k / floor(cols/w),
      k % floor(cols/w)). `as_list` changes only the container. */
  function AsBatch<T>(img: Array3<T>, shape: BlockShape, asList: bool): (r: Result<Batch<T>>)
    requires img.Valid()
    ensures r.Ok? <==> shape.chans == img.chans && shape.rows > 0 && shape.cols > 0 && shape.chans > 0
    ensures r.Err? ==> r.error == ChopToBlocks(img, shape).error
    ensures r.Ok? ==> r.value.container == (if asList then PyList else NdArray)
    ensures r.Ok? ==> |r.value.blocks| == (img.rows / shape.rows) * (img.cols / shape.cols)
    ensures r.Ok? ==> forall k | 0 <= k < |r.value.blocks| ::
      img.cols / shape.cols > 0 &&
      IsBlock(img, shape.rows, shape.cols, k / (img.cols / shape.cols), k % (img.cols / shape.cols), r.value.blocks[k])
  {
    match ChopToBlocks(img, shape)
    case Err(e) => Err(e)
    case Ok(blocks) =>
      var ni := img.cols / shape.cols;
      FlattenBlockGrid(img, shape.rows, shape.cols, ni, blocks);
      Ok(Batch(if asList then PyList else NdArray, Flatten(blocks, ni)))
  }

  /** Asking for a list changes the container and nothing else. */
  lemma AsBatchContainerOnly<T>(img: Array3<T>, shape: BlockShape)
    requires img.Valid()
    ensures AsBatch(img, shape, true).Ok? == AsBatch(img, shape, false).Ok?
    ensures AsBatch(img, shape, true).Ok? ==>
      AsBatch(img, shape, true).value.blocks == AsBatch(img, shape, false).value.blocks
  {
  }
}

=== FILE: buildplan.dfy ===
/** The orchestration of `build_tif_datasets.main`: which dataset splits
    are announced, when the user is asked to confirm, and the order in which
    splits are cleaned and built.

    The raster class that does the cleaning and building is outside this
    model; its `clean_*` and `build_*` calls are opaque actions, and the
    `input()` confirmation is an action too.
 */
module BuildPlan {

  /** The `build_info` section of the configuration. */
  datatype BuildInfo = BuildInfo(train: bool, valid: bool, predict: bool, erase: bool, warnings: bool)

  datatype Split = TrainSplit | ValidSplit | PredictSplit

  datatype Action =
    | Prompt(announced: seq<string>)   // print the warning, wait for enter
    | Clean(split: Split)              // clean_train_images, clean_valid_images, clean_pred_images
    | Build(split: Split)              // build_train_dataset, build_valid_dataset, build_pred_dataset

  /** The fixed processing order of the splits. */
  function Rank(s: Split): nat {
    match s
    case TrainSplit => 0
    case ValidSplit => 1
    case PredictSplit => 2
  }

  function Requested(info: BuildInfo, s: Split): bool {
    match s
    case TrainSplit => info.train
    case ValidSplit => info.valid
    case PredictSplit => info.predict
  }

  // ---------------------------------------------------------------------
  // The announced directory names

  /** The names shown to the user; the valid split is shown as "test". */
  const AllDirs: seq<string> := ["train", "test", "predict"]

  /** numpy boolean-mask indexing `names[flags]`: the names whose flag is
      set, in their original order. */
  function Mask(names: seq<string>, flags: seq<bool>): (r: seq<string>)
    requires |names| == |flags|
    ensures |r| <= |names|
    ensures forall k | 0 <= k < |names| :: flags[k] ==> names[k] in r
    ensures forall x | x in r :: exists k | 0 <= k < |names| :: flags[k] && names[k] == x
  {
    if |names| == 0 then []
    else
      var rest := Mask(names[1..], flags[1..]);
      assert forall k | 1 <= k < |names| :: names[k] == names[1..][k - 1] && flags[k] == flags[1..][k - 1];
      (if flags[0] then [names[0]] else []) + rest
  }

  /** Masking keeps order and multiplicity: masking a concatenation masks
      each part and concatenates the results. */
  lemma {:induction false} MaskAppend(a: seq<string>, fa: seq<bool>, b: seq<string>, fb: seq<bool>)
    requires |a| == |fa| && |b| == |fb|
    ensures Mask(a + b, fa + fb) == Mask(a, fa) + Mask(b, fb)
    decreases |a|
  {
    if |a| == 0 {
      assert a + b == b && fa + fb == fb;
    } else {
      assert (a + b)[0] == a[0] && (fa + fb)[0] == fa[0];
      assert (a + b)[1..] == a[1..] + b && (fa + fb)[1..] == fa[1..] + fb;
      MaskAppend(a[1..], fa[1..], b, fb);
    }
  }

  /** A single name survives the mask exactly when its flag is set. */
  lemma MaskOne(name: string, flag: bool)
    ensures Mask([name], [flag]) == (if flag then [name] else [])
  {
    assert [name][1..] == [] && [flag][1..] == [];
    assert Mask([name], [flag]) == (if flag then [name] else []) + Mask([], []);
  }

  /** Masking the three directory names keeps the requested ones in the
      fixed order train, test, predict. */
  lemma MaskAllDirs(train: bool, valid: bool, predict: bool)
    ensures Mask(AllDirs, [train, valid, predict]) ==
      (if train then ["train"] else []) + (if valid then ["test"] else [])
      + (if predict then ["predict"] else [])
  {
    var flags := [train, valid, predict];
    assert AllDirs[1..] == ["test", "predict"] && flags[1..] == [valid, predict];
    assert ["test", "predict"][1..] == ["predict"] && [valid, predict][1..] == [predict];
    MaskOne("predict", predict);
    var tail := Mask(["test", "predict"], [valid, predict]);
    assert tail == (if valid then ["test"] else []) + Mask(["predict"], [predict]);
    assert Mask(AllDirs, flags) == (if train then ["train"] else []) + tail;
  }

  /** `all_dirs[log_ind]`: the requested names, in order, each once. */
  function Announced(info: BuildInfo): (names: seq<string>)
    ensures names ==
      (if info.train then ["train"] else []) + (if info.valid then ["test"] else [])
      + (if info.predict then ["predict"] else [])
    ensures "train" in names <==> info.train
    ensures "test" in names <==> info.valid
    ensures "predict" in names <==> info.predict
  {
    MaskAllDirs(info.train, info.valid, info.predict);
    Mask(AllDirs, [info.train, info.valid, info.predict])
  }

  // ---------------------------------------------------------------------
  // The plan

  /** The actions for one split: nothing when it is not requested,
      otherwise an optional clean followed by the build. */
  function StepsFor(info: BuildInfo, s: Split): (steps: seq<Action>)
    ensures |steps| > 0 <==> Requested(info, s)
    ensures |steps| == 2 <==> Requested(info, s) && info.erase
    ensures |steps| > 0 ==> steps[|steps| - 1] == Build(s)
  {
    if !Requested(info, s) then []
    else (if info.erase then [Clean(s)] else []) + [Build(s)]
  }

  /** The confirmation prompt, when there is one. */
  function Preamble(info: BuildInfo): (pre: seq<Action>)
    ensures forall s :: multiset(pre)[Build(s)] == 0 && multiset(pre)[Clean(s)] == 0
  {
    if info.warnings && info.erase then [Prompt(Announced(info))] else []
  }

  /** Everything `main` does after the raster object is built, in order.
      The confirmation prompt comes first, only when both `warnings` and
      `erase` are set, and never anywhere else; every clean is immediately
      followed by the build of the same split; and splits are handled in the
      fixed order train, valid, predict. */
  function Plan(info: BuildInfo): (plan: seq<Action>)
    ensures (|plan| > 0 && plan[0].Prompt?) <==> info.warnings && info.erase
    ensures forall k | 0 < k < |plan| :: !plan[k].Prompt?
    ensures forall k | 0 <= k < |plan| && plan[k].Prompt? :: plan[k].announced == Announced(info)
    ensures CleansFollowed(plan)
    ensures InOrder(plan)
  {
    BodyShape(info);
    PromptInFront(Preamble(info), Body(info));
    Preamble(info) + Body(info)
  }

  /** A split's own steps build it once when requested, and clean it once
      when `erase` is also set. */
  lemma OwnStepsCount(info: BuildInfo, s: Split)
    ensures multiset(StepsFor(info, s))[Build(s)] == (if Requested(info, s) then 1 else 0)
    ensures multiset(StepsFor(info, s))[Clean(s)] == (if Requested(info, s) && info.erase then 1 else 0)
  {
    if Requested(info, s) {
      if info.erase {
        assert StepsFor(info, s) == [Clean(s)] + [Build(s)];
      } else {
        assert StepsFor(info, s) == [Build(s)];
      }
    }
  }

  /** Another split's steps never build or clean `s`. */
  lemma OtherStepsCount(info: BuildInfo, s: Split, s': Split)
    requires s != s'
    ensures multiset(StepsFor(info, s'))[Build(s)] == 0
    ensures multiset(StepsFor(info, s'))[Clean(s)] == 0
  {
    if Requested(info, s') {
      if info.erase {
        assert StepsFor(info, s') == [Clean(s')] + [Build(s')];
      } else {
        assert StepsFor(info, s') == [Build(s')];
      }
    }
  }

  /** One split's steps mention that split only. */
  lemma StepsCount(info: BuildInfo, s: Split, s': Split)
    ensures multiset(StepsFor(info, s'))[Build(s)] == (if s == s' && Requested(info, s) then 1 else 0)
    ensures multiset(StepsFor(info, s'))[Clean(s)] == (if s == s' && Requested(info, s) && info.erase then 1 else 0)
  {
    if s == s' {
      OwnStepsCount(info, s);
    } else {
      OtherStepsCount(info, s, s');
    }
  }

  /** How often an action occurs in the three split blocks together. */
  lemma BodyCount(info: BuildInfo, a: Action)
    ensures multiset(Body(info))[a] ==
      multiset(StepsFor(info, TrainSplit))[a] + multiset(StepsFor(info, ValidSplit))[a]
      + multiset(StepsFor(info, PredictSplit))[a]
  {
    var st, sv, sp := StepsFor(info, TrainSplit), StepsFor(info, ValidSplit), StepsFor(info, PredictSplit);
    assert Body(info) == (st + sv) + sp;
    assert multiset(Body(info))[a] == multiset(st + sv)[a] + multiset(sp)[a];
    assert multiset(st + sv)[a] == multiset(st)[a] + multiset(sv)[a];
  }

  /** The preamble never cleans or builds, so a clean or build occurs in
      the plan as often as in the split blocks. */
  lemma PreambleCount(info: BuildInfo, a: Action)
    requires !a.Prompt?
    ensures multiset(Plan(info))[a] == multiset(Body(info))[a]
  {
    var pre := Preamble(info);
    assert Plan(info) == pre + Body(info);
    assert multiset(Plan(info))[a] == multiset(pre)[a] + multiset(Body(info))[a];
    assert multiset(pre)[a] == 0 by {
      if a.Build? {
        assert a == Build(a.split);
      } else {
        assert a == Clean(a.split);
      }
    }
  }

  /** How often an action occurs in the plan: the preamble never cleans
      or builds, so only the per-split steps count. */
  lemma PlanCount(info: BuildInfo, a: Action)
    requires !a.Prompt?
    ensures multiset(Plan(info))[a] ==
      multiset(StepsFor(info, TrainSplit))[a] + multiset(StepsFor(info, ValidSplit))[a]
      + multiset(StepsFor(info, PredictSplit))[a]
  {
    PreambleCount(info, a);
    BodyCount(info, a);
  }

  /** The split blocks build split `s` once when it is requested, and clean
      it once when `erase` is also set. */
  lemma BodySplitOnce(info: BuildInfo, s: Split)
    ensures multiset(Body(info))[Build(s)] == (if Requested(info, s) then 1 else 0)
    ensures multiset(Body(info))[Clean(s)] == (if Requested(info, s) && info.erase then 1 else 0)
  {
    BodyCount(info, Build(s));
    BodyCount(info, Clean(s));
    OwnStepsCount(info, s);
    match s
    case TrainSplit =>
      OtherStepsCount(info, s, ValidSplit);
      OtherStepsCount(info, s, PredictSplit);
    case ValidSplit =>
      OtherStepsCount(info, s, TrainSplit);
      OtherStepsCount(info, s, PredictSplit);
    case PredictSplit =>
      OtherStepsCount(info, s, TrainSplit);
      OtherStepsCount(info, s, ValidSplit);
  }

  /** Each requested split is built exactly once, and cleaned exactly once
      when `erase` is set; an unrequested split is never touched. */
  lemma EachSplitOnce(info: BuildInfo, s: Split)
    ensures multiset(Plan(info))[Build(s)] == (if Requested(info, s) then 1 else 0)
    ensures multiset(Plan(info))[Clean(s)] == (if Requested(info, s) && info.erase then 1 else 0)
  {
    PreambleCount(info, Build(s));
    PreambleCount(info, Clean(s));
    BodySplitOnce(info, s);
  }

  // ---------------------------------------------------------------------
  // Shape of the plan

  ghost predicate NoPrompt(p: seq<Action>) {
    forall k | 0 <= k < |p| :: !p[k].Prompt?
  }

  /** Every action of `p` cleans or builds the split `s`. */
  ghost predicate OnlySplit(p: seq<Action>, s: Split) {
    forall k | 0 <= k < |p| :: !p[k].Prompt? && p[k].split == s
  }

  /** Every clean is immediately followed by the build of the same split. */
  ghost predicate CleansFollowed(p: seq<Action>) {
    forall k | 0 <= k < |p| && p[k].Clean? :: k + 1 < |p| && p[k + 1] == Build(p[k].split)
  }

  /** Cleans and builds appear in the fixed split order. */
  ghost predicate InOrder(p: seq<Action>) {
    forall k, k' | 0 <= k < k' < |p| && !p[k].Prompt? && !p[k'].Prompt? ::
      Rank(p[k].split) <= Rank(p[k'].split)
  }

  lemma StepsShape(info: BuildInfo, s: Split)
    ensures OnlySplit(StepsFor(info, s), s)
    ensures CleansFollowed(StepsFor(info, s))
  {
  }

  lemma CleansFollowedAppend(a: seq<Action>, b: seq<Action>)
    requires CleansFollowed(a) && CleansFollowed(b)
    ensures CleansFollowed(a + b)
  {
    forall k | 0 <= k < |a + b| && (a + b)[k].Clean?
      ensures k + 1 < |a + b| && (a + b)[k + 1] == Build((a + b)[k].split)
    {
      if k < |a| {
        assert (a + b)[k] == a[k];
        assert (a + b)[k + 1] == a[k + 1];
      } else {
        assert (a + b)[k] == b[k - |a|];
        assert (a + b)[k + 1] == b[k + 1 - |a|];
      }
    }
  }

  /** The three split blocks, back to back. */
  function Body(info: BuildInfo): seq<Action> {
    StepsFor(info, TrainSplit) + StepsFor(info, ValidSplit) + StepsFor(info, PredictSplit)
  }

  lemma BodyShape(info: BuildInfo)
    ensures NoPrompt(Body(info)) && CleansFollowed(Body(info)) && InOrder(Body(info))
  {
    var st, sv, sp := StepsFor(info, TrainSplit), StepsFor(info, ValidSplit), StepsFor(info, PredictSplit);
    StepsShape(info, TrainSplit);
    StepsShape(info, ValidSplit);
    StepsShape(info, PredictSplit);
    CleansFollowedAppend(st, sv);
    CleansFollowedAppend(st + sv, sp);
    BlocksInOrder(st, sv, sp);
  }

  lemma BlocksInOrder(st: seq<Action>, sv: seq<Action>, sp: seq<Action>)
    requires OnlySplit(st, TrainSplit) && OnlySplit(sv, ValidSplit) && OnlySplit(sp, PredictSplit)
    ensures NoPrompt(st + sv + sp) && InOrder(st + sv + sp)
  {
    var body := st + sv + sp;
    assert forall k | 0 <= k < |body| ::
      !body[k].Prompt? && Rank(body[k].split) == (if k < |st| then 0 else if k < |st| + |sv| then 1 else 2)
    by {
      forall k | 0 <= k < |body|
        ensures !body[k].Prompt? && Rank(body[k].split) == (if k < |st| then 0 else if k < |st| + |sv| then 1 else 2)
      {
        if k < |st| {
          assert body[k] == st[k];
        } else if k < |st| + |sv| {
          assert body[k] == sv[k - |st|];
        } else {
          assert body[k] == sp[k - |st| - |sv|];
        }
      }
    }
  }

  /** Putting the prompt, if any, in front of the clean and build steps
      keeps them in order and keeps every clean next to its build. */
  lemma PromptInFront(pre: seq<Action>, body: seq<Action>)
    requires |pre| <= 1 && forall k | 0 <= k < |pre| :: pre[k].Prompt?
    requires NoPrompt(body) && CleansFollowed(body) && InOrder(body)
    ensures forall k | |pre| <= k < |pre + body| :: !(pre + body)[k].Prompt?
    ensures CleansFollowed(pre + body) && InOrder(pre + body)
  {
    forall k | |pre| <= k < |pre + body| ensures !(pre + body)[k].Prompt? {
      assert (pre + body)[k] == body[k - |pre|];
    }
    CleansFollowedAppend(pre, body);
    forall k, k' | 0 <= k < k' < |pre + body| && !(pre + body)[k].Prompt? && !(pre + body)[k'].Prompt?
      ensures Rank((pre + body)[k].split) <= Rank((pre + body)[k'].split)
    {
      assert (pre + body)[k] == body[k - |pre|] && (pre + body)[k'] == body[k' - |pre|];
    }
  }

  /** Nothing ties one flag to another: the valid split is built even when
      the train split is not requested. */
  lemma ValidWithoutTrain(info: BuildInfo)
    requires info.valid && !info.train
    ensures Build(ValidSplit) in Plan(info) && Build(TrainSplit) !in Plan(info)
  {
    EachSplitOnce(info, ValidSplit);
    EachSplitOnce(info, TrainSplit);
  }

  // ---------------------------------------------------------------------
  // Running the plan against the split directories

  /** What has happened to a split directory. */
  datatype DirState = Untouched | Cleaned | Built(cleanedFirst: bool)

  datatype Dirs = Dirs(train: DirState, valid: DirState, predict: DirState, confirmed: bool)

  function StateOf(d: Dirs, s: Split): DirState {
    match s
    case TrainSplit => d.train
    case ValidSplit => d.valid
    case PredictSplit => d.predict
  }

  function WithState(d: Dirs, s: Split, st: DirState): (r: Dirs)
    ensures StateOf(r, s) == st
    ensures forall s' | s' != s :: StateOf(r, s') == StateOf(d, s')
    ensures r.confirmed == d.confirmed
  {
    match s
    case TrainSplit => d.(train := st)
    case ValidSplit => d.(valid := st)
    case PredictSplit => d.(predict := st)
  }

  /** The effect of one action. */
  function Apply(d: Dirs, a: Action): Dirs {
    match a
    case Prompt(_) => d.(confirmed := true)
    case Clean(s) => WithState(d, s, Cleaned)
    case Build(s) => WithState(d, s, Built(StateOf(d, s) == Cleaned))
  }

  function Run(d: Dirs, plan: seq<Action>): Dirs
    decreases |plan|
  {
    if |plan| == 0 then d else Run(Apply(d, plan[0]), plan[1..])
  }

  const Fresh: Dirs := Dirs(Untouched, Untouched, Untouched, false)

  lemma {:induction false} RunAppend(d: Dirs, p: seq<Action>, q: seq<Action>)
    ensures Run(d, p + q) == Run(Run(d, p), q)
    decreases |p|
  {
    if |p| > 0 {
      assert (p + q)[1..] == p[1..] + q;
      RunAppend(Apply(d, p[0]), p[1..], q);
    } else {
      assert p + q == q;
    }
  }

  /** Running one split's steps settles that split and nothing else. */
  lemma RunSteps(d: Dirs, info: BuildInfo, s: Split)
    requires StateOf(d, s) == Untouched
    ensures var r := Run(d, StepsFor(info, s));
      && StateOf(r, s) == (if Requested(info, s) then Built(info.erase) else Untouched)
      && (forall s' | s' != s :: StateOf(r, s') == StateOf(d, s'))
      && r.confirmed == d.confirmed
  {
    if Requested(info, s) {
      if info.erase {
        assert StepsFor(info, s) == [Clean(s), Build(s)];
        assert Run(d, [Clean(s), Build(s)]) == Run(Apply(d, Clean(s)), [Build(s)]);
        var d1 := Apply(d, Clean(s));
        assert [Clean(s), Build(s)][1..] == [Build(s)];
        assert Run(d1, [Build(s)]) == Run(Apply(d1, Build(s)), []);
      } else {
        assert StepsFor(info, s) == [Build(s)];
        assert Run(d, [Build(s)]) == Run(Apply(d, Build(s)), []);
      }
    }
  }

  /** The preamble only records whether the user was asked to confirm. */
  lemma PreambleRun(info: BuildInfo)
    ensures Run(Fresh, Preamble(info)) == Fresh.(confirmed := info.warnings && info.erase)
  {
    var pre := Preamble(info);
    if info.warnings && info.erase {
      assert pre[1..] == [];
      assert Run(Fresh, pre) == Run(Apply(Fresh, pre[0]), []);
    }
  }

  /** The three blocks, run from untouched directories, build exactly the
      requested splits and leave the confirmation flag alone. */
  lemma BodyRun(d: Dirs, info: BuildInfo)
    requires d.train == Untouched && d.valid == Untouched && d.predict == Untouched
    ensures forall s ::
      StateOf(Run(d, Body(info)), s) == (if Requested(info, s) then Built(info.erase) else Untouched)
    ensures Run(d, Body(info)).confirmed == d.confirmed
  {
    var st, sv, sp := StepsFor(info, TrainSplit), StepsFor(info, ValidSplit), StepsFor(info, PredictSplit);
    assert Body(info) == (st + sv) + sp;
    RunAppend(d, st + sv, sp);
    RunAppend(d, st, sv);
    RunSteps(d, info, TrainSplit);
    var d1 := Run(d, st);
    RunSteps(d1, info, ValidSplit);
    var d2 := Run(d1, sv);
    RunSteps(d2, info, PredictSplit);
    var d3 := Run(d2, sp);
    forall s ensures StateOf(d3, s) == (if Requested(info, s) then Built(info.erase) else Untouched) {
      match s
      case TrainSplit =>
        assert StateOf(d3, s) == StateOf(d2, s) == StateOf(d1, s);
      case ValidSplit =>
        assert StateOf(d3, s) == StateOf(d2, s);
      case PredictSplit =>
    }
  }

  /** Carrying out the plan from untouched directories leaves every
      requested split built, after a clean exactly when `erase` is set,
      every other split untouched, and the run confirmed exactly when the
      prompt was shown. */
  lemma PlanOutcome(info: BuildInfo)
    ensures forall s ::
      StateOf(Run(Fresh, Plan(info)), s) == (if Requested(info, s) then Built(info.erase) else Untouched)
    ensures Run(Fresh, Plan(info)).confirmed == (info.warnings && info.erase)
  {
    assert Plan(info) == Preamble(info) + Body(info);
    RunAppend(Fresh, Preamble(info), Body(info));
    PreambleRun(info);
    BodyRun(Fresh.(confirmed := info.warnings && info.erase), info);
  }
}

=== FILE: images.dfy ===
/** Image checks and the small helpers of the cleaning utilities:
    `atleast_list`, `data_is_ok` and the id state of `SatelliteImage`. */
module Images {
  import opened Outcomes

  // ---------------------------------------------------------------------
  // atleast_list

  /** The Python values `atleast_list` distinguishes: only a `list` is
      kept as it is; a tuple is not a list. */
  datatype PyValue =
    | PyNone
    | Scalar(repr: string)
    | PyTuple(elems: seq<PyValue>)
    | PyList(items: seq<PyValue>)

  /** `atleast_list(thing)`: a list is returned unchanged, anything else is
      wrapped in a one-element list. */
  function AtleastList(thing: PyValue): (r: PyValue)
    ensures r.PyList?
    ensures thing.PyList? ==> r == thing
    ensures !thing.PyList? ==> r.items == [thing]
  {
    if thing.PyList? then thing else PyList([thing])
  }

  /** Applying `atleast_list` twice is the same as applying it once. */
  lemma AtleastListIdempotent(thing: PyValue)
    ensures AtleastList(AtleastList(thing)) == AtleastList(thing)
  {
  }

  // ---------------------------------------------------------------------
  // data_is_ok

  datatype DType = UInt8 | OtherDType(name: string)

  /** A numpy array: its dtype, its shape and its values in row-major
      order. Values are kept as integers: only `uint8` arrays get past the
      first check, and their values are integers. */
  datatype NdArray = NdArray(dtype: DType, shape: seq<int>, values: seq<int>)

  /** What a call returns, or the exception it raises. */
  datatype Checked = Returned(ok: bool) | Raised(error: Error)

  /** The largest value (numpy's `max`); only defined for a non-empty array. */
  function Max(s: seq<int>): (m: int)
    requires |s| > 0
    ensures m in s && forall k | 0 <= k < |s| :: s[k] <= m
  {
    if |s| == 1 then s[0]
    else
      var m := Max(s[1..]);
      assert forall k | 1 <= k < |s| :: s[k] == s[1..][k - 1];
      if s[0] >= m then s[0] else m
  }

  /** The smallest value (numpy's `min`); only defined for a non-empty array. */
  function Min(s: seq<int>): (m: int)
    requires |s| > 0
    ensures m in s && forall k | 0 <= k < |s| :: m <= s[k]
  {
    if |s| == 1 then s[0]
    else
      var m := Min(s[1..]);
      assert forall k | 1 <= k < |s| :: s[k] == s[1..][k - 1];
      if s[0] <= m then s[0] else m
  }

  /** The shape an image must have for its use: 400×400×3 for object
      detection, 200×200×3 for patches, anything otherwise. */
  predicate ShapeFitsUse(shape: seq<int>, use: Option<string>) {
    if use == Some("obj") then shape == [400, 400, 3]
    else if use == Some("patch") then shape == [200, 200, 3]
    else true
  }

  /** Every value lies in [0, 255] and some value exceeds 1, that is, the
      data was not normalized to [0, 1]. */
  ghost predicate EightBitRange(values: seq<int>) {
    && (forall k | 0 <= k < |values| :: 0 <= values[k] <= 255)
    && (exists k | 0 <= k < |values| :: values[k] > 1)
  }

  /** `data_is_ok(data, use, raise_exception)`. A failed check returns
      false, or raises when `raise_exception` is set. Taking the maximum
      of an empty array raises a `ValueError`, which is not caught. */
  function DataIsOk(data: NdArray, use: Option<string>, raiseException: bool): (r: Checked)
    ensures r == Returned(true) <==>
      data.dtype == UInt8 && |data.values| > 0 && EightBitRange(data.values) && ShapeFitsUse(data.shape, use)
    ensures r == Raised(EmptyReduction) <==> data.dtype == UInt8 && |data.values| == 0
    ensures raiseException ==> r != Returned(false)
    ensures !raiseException ==> r != Raised(AssertionFailed)
    ensures r.Raised? ==> r.error == EmptyReduction || r.error == AssertionFailed
  {
    var failed := if raiseException then Raised(AssertionFailed) else Returned(false);
    if data.dtype != UInt8 then failed
    else if |data.values| == 0 then Raised(EmptyReduction)
    else if !(Max(data.values) <= 255) then failed
    else if !(Min(data.values) >= 0) then failed
    else if !(Max(data.values) > 1) then failed
    else if !ShapeFitsUse(data.shape, use) then failed
    else Returned(true)
  }

  // ---------------------------------------------------------------------
  // SatelliteImage

  /** The state of a `SatelliteImage`: its data and its optional id. */
  datatype SatelliteImage = SatelliteImage(data: NdArray, imageId: Option<string>)

  /** The constructor runs `data_is_ok` and discards its result: the
      image is built unless the check raises. */
  function NewSatelliteImage(data: NdArray, imageId: Option<string>, use: Option<string>,
                             raiseException: bool): (r: Result<SatelliteImage>)
    ensures r.Ok? <==> !DataIsOk(data, use, raiseException).Raised?
    ensures r.Ok? ==> r.value.data == data && r.value.imageId == imageId
    ensures r.Err? ==> r.error == DataIsOk(data, use, raiseException).error
    ensures !raiseException && data.dtype != UInt8 ==> r.Ok?
  {
    match DataIsOk(data, use, raiseException)
    case Raised(e) => Err(e)
    case Returned(_) => Ok(SatelliteImage(data, imageId))
  }

  /** The `image_id` property: raises while no id is set. */
  function ImageId(img: SatelliteImage): (r: Result<string>)
    ensures r.Ok? <==> img.imageId.Some?
    ensures r.Ok? ==> img.imageId == Some(r.value)
    ensures r.Err? ==> r.error == NoImageId
  {
    match img.imageId
    case None => Err(NoImageId)
    case Some(id) => Ok(id)
  }

  /** `set_image_id(image_id)`; Python allows passing `None`, which unsets it. */
  function SetImageId(img: SatelliteImage, imageId: Option<string>): (r: SatelliteImage)
    ensures r.data == img.data
  {
    img.(imageId := imageId)
  }

  /** Reading the id gives the last id set, and raises after `None` was set. */
  lemma ImageIdAfterSet(img: SatelliteImage, first: Option<string>, last: Option<string>)
    ensures ImageId(SetImageId(SetImageId(img, first), last)) ==
      (match last case Some(id) => Ok(id) case None => Err(NoImageId))
    ensures SetImageId(SetImageId(img, first), last).data == img.data
  {
  }
}

=== FILE: labels.dfy ===
/** The class-label tables and `ids_to_classes`.

    Each table maps a class label to an integer id. Python dictionaries keep
    insertion order, so a table is an ordered list of (label, id) pairs and
    iterating `.items()` walks it front to back.
 */
module Labels {
  import opened Outcomes

  type Table = seq<(string, int)>

  /** Labels and ids used for patch classification. */
  const PatchClassToId: Table := [
    ("trees", 0), ("canopy", 1), ("water", 2), ("crops", 3),
    ("vehicles", 4), ("buildings", 5), ("field", 6)
  ]

  /** Labels and ids used for object detection. */
  const ObjClassToId: Table := [
    ("trees", 0), ("canopy", 1), ("vehicles", 2), ("buildings", 3), ("animals", 4)
  ]

  /** No label and no id occurs twice. */
  ghost predicate Injective(t: Table) {
    forall p, q | 0 <= p < q < |t| :: t[p].0 != t[q].0 && t[p].1 != t[q].1
  }

  ghost predicate HasLabel(t: Table, name: string) {
    exists p | 0 <= p < |t| :: t[p].0 == name
  }

  ghost predicate HasId(t: Table, id: int) {
    exists p | 0 <= p < |t| :: t[p].1 == id
  }

  /** Both tables are one-to-one, so an id names at most one label. */
  lemma TablesInjective()
    ensures Injective(PatchClassToId) && Injective(ObjClassToId)
  {
  }

  /** The table selected by `use`; any other `use` raises. */
  function TableFor(use: string): (r: Result<Table>)
    ensures r.Ok? <==> use == "patch" || use == "obj"
    ensures r.Ok? ==> Injective(r.value)
    ensures r.Err? ==> r.error == InvalidUse
  {
    TablesInjective();
    if use == "patch" then Ok(PatchClassToId)
    else if use == "obj" then Ok(ObjClassToId)
    else Err(InvalidUse)
  }

  /** The inner loop: every label of `t` whose id equals `id`, in table order. */
  function LabelsWithId(t: Table, id: int): (r: seq<string>)
    ensures |r| <= |t|
    ensures forall k | 0 <= k < |r| :: exists p | 0 <= p < |t| :: t[p] == (r[k], id)
  {
    if |t| == 0 then []
    else
      var rest := LabelsWithId(t[1..], id);
      assert forall k | 0 <= k < |rest| :: exists p | 1 <= p < |t| :: t[p] == (rest[k], id) by {
        forall k | 0 <= k < |rest|
          ensures exists p | 1 <= p < |t| :: t[p] == (rest[k], id)
        {
          var p :| 0 <= p < |t[1..]| && t[1..][p] == (rest[k], id);
          assert t[p + 1] == (rest[k], id);
        }
      }
      (if t[0].1 == id then [t[0].0] else []) + rest
  }

  /** In a one-to-one table an id names exactly its own label, or nothing. */
  lemma {:induction false} LabelsWithIdInjective(t: Table, id: int)
    requires Injective(t)
    ensures HasId(t, id) ==> exists p | 0 <= p < |t| :: t[p].1 == id && LabelsWithId(t, id) == [t[p].0]
    ensures !HasId(t, id) ==> LabelsWithId(t, id) == []
  {
    if |t| > 0 {
      var tail := t[1..];
      assert Injective(tail) by {
        forall p, q | 0 <= p < q < |tail| ensures tail[p].0 != tail[q].0 && tail[p].1 != tail[q].1 {
          assert tail[p] == t[p + 1] && tail[q] == t[q + 1];
        }
      }
      LabelsWithIdInjective(tail, id);
      if t[0].1 == id {
        assert !HasId(tail, id) by {
          forall p | 0 <= p < |tail| ensures tail[p].1 != id {
            assert tail[p] == t[p + 1];
          }
        }
      } else if HasId(t, id) {
        var p :| 0 <= p < |t| && t[p].1 == id;
        assert tail[p - 1].1 == id;
        var p' :| 0 <= p' < |tail| && tail[p'].1 == id && LabelsWithId(tail, id) == [tail[p'].0];
        assert t[p' + 1] == tail[p'];
      } else {
        assert !HasId(tail, id) by {
          forall p | 0 <= p < |tail| ensures tail[p].1 != id {
            assert tail[p] == t[p + 1];
          }
        }
      }
    }
  }

  /** The outer loop: the labels of every id of `ids`, in order. */
  function CollectLabels(t: Table, ids: seq<int>): (r: seq<string>)
    ensures forall k | 0 <= k < |r| :: HasLabel(t, r[k])
  {
    if |ids| == 0 then []
    else
      var first := LabelsWithId(t, ids[0]);
      assert forall k | 0 <= k < |first| :: HasLabel(t, first[k]) by {
        forall k | 0 <= k < |first| ensures HasLabel(t, first[k]) {
          var p :| 0 <= p < |t| && t[p] == (first[k], ids[0]);
          assert t[p].0 == first[k];
        }
      }
      first + CollectLabels(t, ids[1..])
  }

  /** `ids_to_classes(ids, use)`: raises for an unknown `use`; otherwise
      yields only labels of the selected table, at most one per id. */
  function IdsToClasses(ids: seq<int>, use: string): (r: Result<seq<string>>)
    ensures r.Ok? <==> use == "patch" || use == "obj"
    ensures r.Err? ==> r.error == InvalidUse
    ensures r.Ok? ==> |r.value| <= |ids|
    ensures r.Ok? ==> forall k | 0 <= k < |r.value| :: HasLabel(TableFor(use).value, r.value[k])
  {
    match TableFor(use)
    case Err(e) => Err(e)
    case Ok(t) =>
      CollectLabelsShorter(t, ids);
      Ok(CollectLabels(t, ids))
  }

  // ---------------------------------------------------------------------
  // What ids_to_classes computes

  /** Order is preserved: converting a concatenation converts each part. */
  lemma {:induction false} CollectLabelsAppend(t: Table, ids1: seq<int>, ids2: seq<int>)
    ensures CollectLabels(t, ids1 + ids2) == CollectLabels(t, ids1) + CollectLabels(t, ids2)
    decreases |ids1|
  {
    if |ids1| > 0 {
      assert (ids1 + ids2)[0] == ids1[0];
      assert (ids1 + ids2)[1..] == ids1[1..] + ids2;
      CollectLabelsAppend(t, ids1[1..], ids2);
    } else {
      assert ids1 + ids2 == ids2;
    }
  }

  /** A single known id becomes its unique label; an unknown id is skipped. */
  lemma IdsToClassesSingle(id: int, use: string)
    requires use == "patch" || use == "obj"
    ensures var t := TableFor(use).value;
      && (HasId(t, id) ==> exists p | 0 <= p < |t| :: t[p].1 == id && IdsToClasses([id], use) == Ok([t[p].0]))
      && (!HasId(t, id) ==> IdsToClasses([id], use) == Ok([]))
  {
    var t := TableFor(use).value;
    LabelsWithIdInjective(t, id);
    assert [id][1..] == [];
    assert CollectLabels(t, [id]) == LabelsWithId(t, id) + CollectLabels(t, []) == LabelsWithId(t, id);
    assert IdsToClasses([id], use) == Ok(LabelsWithId(t, id));
  }

  /** With a one-to-one table there is at most one label per id, so the
      output is never longer than the input. */
  lemma {:induction false} CollectLabelsShorter(t: Table, ids: seq<int>)
    requires Injective(t)
    ensures |CollectLabels(t, ids)| <= |ids|
  {
    if |ids| > 0 {
      LabelsWithIdInjective(t, ids[0]);
      CollectLabelsShorter(t, ids[1..]);
    }
  }

  /** The forward direction: the id of each label, as `CLASS_TO_ID[label]`. */
  function IdOf(t: Table, name: string): (id: int)
    requires HasLabel(t, name)
    ensures exists p | 0 <= p < |t| :: t[p] == (name, id)
  {
    if t[0].0 == name then t[0].1
    else
      assert HasLabel(t[1..], name) by {
        var p :| 0 <= p < |t| && t[p].0 == name;
        assert t[1..][p - 1].0 == name;
      }
      var id := IdOf(t[1..], name);
      ghost var p :| 0 <= p < |t[1..]| && t[1..][p] == (name, id);
      assert t[p + 1] == (name, id);
      id
  }

  /** In a one-to-one table the id of a label names that label alone. */
  lemma LabelOfOwnId(t: Table, name: string)
    requires Injective(t) && HasLabel(t, name)
    ensures LabelsWithId(t, IdOf(t, name)) == [name]
  {
    var id := IdOf(t, name);
    LabelsWithIdInjective(t, id);
    var p :| 0 <= p < |t| && t[p] == (name, id);
    var p' :| 0 <= p' < |t| && t[p'].1 == id && LabelsWithId(t, id) == [t[p'].0];
    assert p == p';
  }

  /** When each id names exactly its own label, collecting gives the labels. */
  lemma {:induction false} CollectOwnLabels(t: Table, ids: seq<int>, labels: seq<string>)
    requires |ids| == |labels|
    requires forall k | 0 <= k < |ids| :: LabelsWithId(t, ids[k]) == [labels[k]]
    ensures CollectLabels(t, ids) == labels
  {
    if |ids| > 0 {
      assert LabelsWithId(t, ids[0]) == [labels[0]];
      CollectOwnLabels(t, ids[1..], labels[1..]);
      assert [labels[0]] + labels[1..] == labels;
    }
  }

  /** Round trip: mapping known labels to ids and back gives the labels. */
  lemma LabelsRoundTrip(t: Table, labels: seq<string>)
    requires Injective(t)
    requires forall k | 0 <= k < |labels| :: HasLabel(t, labels[k])
    ensures CollectLabels(t, seq(|labels|, k requires 0 <= k < |labels| => IdOf(t, labels[k]))) == labels
  {
    var ids := seq(|labels|, k requires 0 <= k < |labels| => IdOf(t, labels[k]));
    forall k | 0 <= k < |ids|
      ensures LabelsWithId(t, ids[k]) == [labels[k]]
    {
      LabelOfOwnId(t, labels[k]);
    }
    CollectOwnLabels(t, ids, labels);
  }

  /** The same round trip through `ids_to_classes` itself. */
  lemma IdsToClassesRoundTrip(labels: seq<string>, use: string)
    requires use == "patch" || use == "obj"
    requires forall k | 0 <= k < |labels| :: HasLabel(TableFor(use).value, labels[k])
    ensures var t := TableFor(use).value;
      IdsToClasses(seq(|labels|, k requires 0 <= k < |labels| => IdOf(t, labels[k])), use) == Ok(labels)
  {
    LabelsRoundTrip(TableFor(use).value, labels);
  }
}

=== FILE: outcomes.dfy ===
/** Failure-carrying values shared by the whole model.

    Python code signals failure by raising; the model returns an `Err`
    carrying which exception the source would raise instead.
 */
module Outcomes {

  /** Python's `None` or a present value. */
  datatype Option<+T> = None | Some(value: T)

  /** The exceptions the modelled code can raise. */
  datatype Error =
    | AssertionFailed        // a failed `assert` in the source
    | InvalidBlockShape      // skimage rejects a non-positive block shape
    | EmptyReduction         // numpy's max/min of a zero-size array
    | InvalidUse             // `raise Exception("invalid use")`
    | NoImageId              // `raise Exception("No id for this image")`

  datatype Result<+T> = Ok(value: T) | Err(error: Error)
}

=== FILE: paths.dfy ===
/** `get_file_name_from_path`: POSIX `os.path.basename` followed by
    `os.path.splitext`, keeping the root. */
module Paths {

  /** Position of the last `ch` in `s`, or -1 (Python's `str.rfind`). */
  function RFind(s: string, ch: char): (r: int)
    ensures -1 <= r < |s|
    ensures r >= 0 ==> s[r] == ch
    ensures forall k | r < k < |s| :: s[k] != ch
  {
    if |s| == 0 then -1
    else if s[|s| - 1] == ch then |s| - 1
    else RFind(s[..|s| - 1], ch)
  }

  /** `rfind` is pinned down by one occurrence with none after it. */
  lemma RFindAt(s: string, ch: char, i: int)
    requires 0 <= i < |s| && s[i] == ch
    requires forall k | i < k < |s| :: s[k] != ch
    ensures RFind(s, ch) == i
  {
  }

  /** `os.path.basename`: the longest suffix of `p` without a '/'. */
  function Basename(p: string): (b: string)
    ensures forall k | 0 <= k < |b| :: b[k] != '/'
    ensures |b| <= |p| && b == p[|p| - |b|..]
    ensures |b| < |p| ==> p[|p| - |b| - 1] == '/'
  {
    p[RFind(p, '/') + 1..]
  }

  /** Some character of s[lo..hi] is not a '.'. */
  predicate HasNonDot(s: string, lo: int, hi: int)
    requires 0 <= lo && hi <= |s|
  {
    exists k | lo <= k < hi :: s[k] != '.'
  }

  /** `os.path.splitext`: splits off the final extension, the part from
      the last '.' of the last path component on. A '.' is not taken as an
      extension when only dots precede it in that component, so dot-files
      such as ".bashrc" have no extension. */
  function SplitExt(p: string): (r: (string, string))
    ensures r.0 + r.1 == p
    ensures r.1 == "" || (r.1[0] == '.' && '.' !in r.1[1..] && '/' !in r.1)
    ensures r.1 != "" ==> HasNonDot(r.0, RFind(p, '/') + 1, |r.0|)
    ensures r.1 != "" <==> RFind(p, '.') > RFind(p, '/') && HasNonDot(p, RFind(p, '/') + 1, RFind(p, '.'))
    ensures r.1 != "" ==> |r.0| == RFind(p, '.')
  {
    var sep := RFind(p, '/');
    var dot := RFind(p, '.');
    if dot > sep && HasNonDot(p, sep + 1, dot) then
      ExtensionShape(p);
      ghost var k :| sep + 1 <= k < dot && p[k] != '.';
      assert p[..dot][k] == p[k];
      (p[..dot], p[dot..])
    else (p, "")
  }

  /** The text from the last '.' on, when that '.' lies in the last path
      component: it starts with the '.', holds no other '.' and no '/'. */
  lemma ExtensionShape(p: string)
    requires RFind(p, '.') > RFind(p, '/')
    ensures var dot := RFind(p, '.');
      && p[..dot] + p[dot..] == p
      && p[dot..][0] == '.'
      && '.' !in p[dot..][1..]
      && '/' !in p[dot..]
  {
    var sep, dot := RFind(p, '/'), RFind(p, '.');
    var ext := p[dot..];
    assert forall k | 0 <= k < |ext| :: ext[k] == p[dot + k];
    assert forall k | 0 <= k < |ext[1..]| :: ext[1..][k] == p[dot + 1 + k];
  }

  /** `get_file_name_from_path(path)`: a prefix of the last path
      component. */
  function FileNameFromPath(path: string): (name: string)
    ensures forall k | 0 <= k < |name| :: name[k] != '/'
    ensures |name| <= |Basename(path)| && name == Basename(path)[..|name|]
  {
    var b := Basename(path);
    var r := SplitExt(b);
    PrefixOfJoin(r.0, r.1, b);
    r.0
  }

  /** The first part of a concatenation is a prefix of it. */
  lemma PrefixOfJoin(a: string, e: string, b: string)
    requires a + e == b
    ensures |a| <= |b| && a == b[..|a|]
    ensures forall k | 0 <= k < |a| :: a[k] == b[k]
  {
    assert b[..|a|] == (a + e)[..|a|];
  }

  /** What `get_file_name_from_path` removes is the final extension: a
      '.' with no '.' after it, preceded by at least one character other
      than '.'. */
  lemma FileNameDropsFinalExtension(path: string)
    ensures var b, name := Basename(path), FileNameFromPath(path);
      |name| < |b| ==>
        && b[|name|] == '.'
        && (forall k | |name| < k < |b| :: b[k] != '.')
        && HasNonDot(name, 0, |name|)
  {
    var b := Basename(path);
    assert RFind(b, '/') == -1;
    var r := SplitExt(b);
    assert b[|r.0|..] == r.1;
  }

  /** It removes nothing exactly when the last component has no such '.':
      no '.' at all, or only dots before its last one. */
  lemma FileNameKeepsWholeComponent(path: string)
    ensures var b := Basename(path);
      FileNameFromPath(path) == b <==> RFind(b, '.') == -1 || !HasNonDot(b, 0, RFind(b, '.'))
  {
    var b := Basename(path);
    assert RFind(b, '/') == -1;
    var dot := RFind(b, '.');
    if dot > -1 && HasNonDot(b, 0, dot) {
      assert |SplitExt(b).1| > 0;
    }
  }

  /** Round trip: the file name and the removed extension make up the last
      path component again, and what was removed is empty or one
      '.'-led extension. */
  lemma {:induction false} FileNameAndExtension(path: string)
    ensures var ext := SplitExt(Basename(path)).1;
      && Basename(path) == FileNameFromPath(path) + ext
      && (ext == "" || (ext[0] == '.' && '.' !in ext[1..]))
  {
  }

  /** The documented example: '/path/to/file/name.ext' gives 'name'. */
  lemma DocumentedExample()
    ensures FileNameFromPath("/path/to/file/name.ext") == "name"
  {
    var p, b := "/path/to/file/name.ext", "name.ext";
    RFindAt(p, '/', 13);
    assert Basename(p) == b;
    assert RFind(b, '/') == -1;
    RFindAt(b, '.', 4);
    assert HasNonDot(b, 0, 4) by { assert b[0] != '.'; }
    assert SplitExt(b).0 == b[..4] == "name";
  }

  /** A leading dot does not start an extension. */
  lemma DotFileExample()
    ensures FileNameFromPath("/home/user/.bashrc") == ".bashrc"
  {
    var p, b := "/home/user/.bashrc", ".bashrc";
    RFindAt(p, '/', 10);
    assert Basename(p) == b;
    RFindAt(b, '.', 0);
  }

  /** Only the final extension is removed. */
  lemma DoubleExtensionExample()
    ensures FileNameFromPath("tiles/archive.tar.gz") == "archive.tar"
  {
    var p, b := "tiles/archive.tar.gz", "archive.tar.gz";
    RFindAt(p, '/', 5);
    assert Basename(p) == b;
    assert RFind(b, '/') == -1;
    RFindAt(b, '.', 11);
    assert HasNonDot(b, 0, 11) by { assert b[0] != '.'; }
    assert SplitExt(b).0 == b[..11] == "archive.tar";
  }
}

=== FILE: training.dfy ===
/** The pure logic of the two YOLO training scripts: the fallback
    train/valid split, the configured-labels check, and the text written to
    the training logs.

    Both scripts share all of it except the summary line. Everything the
    scripts hand to foreign code (annotation parsing, the detector, its
    weights and training loop, the clock) arrives here as an input.
 */
module Training {
  import opened Outcomes

  // ---------------------------------------------------------------------
  // Train/valid split

  /** `int(0.8 * n)`: the number of images kept for training. */
  function SplitIndex(n: nat): (k: nat)
    ensures k <= n
    ensures 5 * k <= 4 * n < 5 * k + 5
  {
    (4 * n) / 5
  }

  datatype ImageSets<T> = ImageSets(train: seq<T>, valid: seq<T>)

  /** `valid = shuffled[k:]`, `train = shuffled[:k]` with k = `int(0.8 * n)`. */
  function SplitShuffled<T>(shuffled: seq<T>): (r: ImageSets<T>)
    ensures r.train + r.valid == shuffled
    ensures |r.train| == SplitIndex(|shuffled|)
  {
    var k := SplitIndex(|shuffled|);
    ImageSets(shuffled[..k], shuffled[k..])
  }

  /** The split is a positional partition: each position of the shuffled
      list lands in exactly one of the two sets, so together they hold the
      same images, with the same multiplicities. */
  lemma SplitIsPartition<T>(shuffled: seq<T>)
    ensures var r := SplitShuffled(shuffled);
      && multiset(r.train) + multiset(r.valid) == multiset(shuffled)
      && (forall p | 0 <= p < |r.train| :: r.train[p] == shuffled[p])
      && (forall p | 0 <= p < |r.valid| :: r.valid[p] == shuffled[|r.train| + p])
      && 5 * |r.valid| >= |shuffled|
  {
  }

  /** Chooses the training and validation images. When the validation
      annotation folder exists, its parsed images are used and the training
      images are left as they are; otherwise the training images, in the
      order `np.random.shuffle` left them, are split 80/20. */
  function ChooseImageSets<T>(trainImgs: seq<T>, validFolderExists: bool, parsedValid: seq<T>,
                              shuffled: seq<T>): (r: ImageSets<T>)
    requires multiset(shuffled) == multiset(trainImgs)
    ensures validFolderExists ==> r.train == trainImgs && r.valid == parsedValid
    ensures !validFolderExists ==> r.train + r.valid == shuffled
    ensures !validFolderExists ==> |r.train| == SplitIndex(|trainImgs|)
    ensures !validFolderExists ==> multiset(r.train) + multiset(r.valid) == multiset(trainImgs)
  {
    if validFolderExists then ImageSets(trainImgs, parsedValid)
    else
      assert |shuffled| == |multiset(shuffled)| == |trainImgs|;
      SplitIsPartition(shuffled);
      SplitShuffled(shuffled)
  }

  // ---------------------------------------------------------------------
  // Configured labels against the labels seen in the annotations

  ghost predicate NoDuplicates<T>(s: seq<T>) {
    forall p, q | 0 <= p < q < |s| :: s[p] != s[q]
  }

  function SetOf<T>(s: seq<T>): set<T> {
    set x | x in s
  }

  /** A list has as many distinct elements as entries exactly when no
      entry repeats; otherwise it has fewer. */
  lemma {:induction false} DistinctCount<T>(s: seq<T>)
    ensures |SetOf(s)| <= |s|
    ensures |SetOf(s)| == |s| <==> NoDuplicates(s)
  {
    if |s| > 0 {
      var tail := s[1..];
      DistinctCount(tail);
      assert SetOf(s) == SetOf(tail) + {s[0]};
      if s[0] in tail {
        assert SetOf(s) == SetOf(tail);
        var q :| 0 <= q < |tail| && tail[q] == s[0];
        assert s[0] == s[q + 1];
        assert !NoDuplicates(s);
      } else {
        assert |SetOf(s)| == |SetOf(tail)| + 1;
        if NoDuplicates(tail) {
          forall p, q | 0 <= p < q < |s| ensures s[p] != s[q] {
            if p == 0 {
              assert s[q] == tail[q - 1];
            } else {
              assert s[p] == tail[p - 1] && s[q] == tail[q - 1];
            }
          }
        } else {
          var p, q :| 0 <= p < q < |tail| && tail[p] == tail[q];
          assert s[p + 1] == s[q + 1];
        }
      }
    } else {
      assert SetOf(s) == {};
    }
  }

  /** A subset is no larger, and a proper subset is smaller. */
  lemma SubsetSmaller<T>(a: set<T>, b: set<T>)
    requires a <= b
    ensures |a| <= |b|
    ensures a != b ==> |a| < |b|
  {
    assert b == a + (b - a);
    if a != b {
      var x :| x in b - a;
    }
  }

  /** The outcome of the label check. */
  datatype LabelDecision = Abort | Proceed(labels: seq<string>)

  /** With a non-empty configured list the run stops when fewer distinct
      configured labels were seen than the list has entries; with an empty
      list it trains on every seen label, in the order they were seen. */
  function CheckLabels(configured: seq<string>, seen: seq<string>): (d: LabelDecision)
    ensures |configured| > 0 ==>
      (d == Abort <==> !(NoDuplicates(configured) && forall k | 0 <= k < |configured| :: configured[k] in seen))
    ensures |configured| > 0 && d.Proceed? ==> d.labels == configured
    ensures |configured| == 0 ==> d == Proceed(seen)
  {
    if |configured| > 0 then
      var overlap := SetOf(configured) * SetOf(seen);
      DistinctCount(configured);
      assert overlap <= SetOf(configured);
      assert (forall k | 0 <= k < |configured| :: configured[k] in seen) <==> overlap == SetOf(configured) by {
        if forall k | 0 <= k < |configured| :: configured[k] in seen {
          assert SetOf(configured) <= overlap;
        }
        if overlap == SetOf(configured) {
          forall k | 0 <= k < |configured| ensures configured[k] in seen {
            assert configured[k] in overlap;
          }
        }
      }
      SubsetSmaller(overlap, SetOf(configured));
      if |overlap| < |configured| then Abort else Proceed(configured)
    else Proceed(seen)
  }

  // ---------------------------------------------------------------------
  // Log text

  ghost predicate NoNewline(s: string) {
    forall k | 0 <= k < |s| :: s[k] != '\n'
  }

  /** Joining two texts without a newline gives a text without one. */
  lemma NoNewlineJoin(a: string, b: string)
    requires NoNewline(a) && NoNewline(b)
    ensures NoNewline(a + b)
  {
    assert forall k | |a| <= k < |a + b| :: (a + b)[k] == b[k - |a|];
  }

  /** The summary line of src/models/train_yolo.py. The mAP text runs
      straight into "ave_pred: ". */
  function YoloSummaryLine(datestr: string, backend: string, mAP: string, avePred: string): (line: string)
    ensures |line| == |datestr| + |backend| + |mAP| + |avePred| + 25
    ensures line[..|datestr|] == datestr
    ensures line[|datestr|..][..8] == " Model: "
    ensures line[|datestr| + 8..][..|backend|] == backend
    ensures line[|datestr| + 8 + |backend|..][..6] == " mAP: "
    ensures line[|datestr| + 8 + |backend| + 6..][..|mAP|] == mAP
    ensures line[|datestr| + 8 + |backend| + 6 + |mAP|..][..10] == "ave_pred: "
    ensures line[|line| - 1 - |avePred|..|line| - 1] == avePred
    ensures line[|line| - 1] == '\n'
    ensures NoNewline(datestr) && NoNewline(backend) && NoNewline(mAP) && NoNewline(avePred) ==>
      NoNewline(line[..|line| - 1])
  {
    var text := datestr + " Model: " + backend + " mAP: " + mAP + "ave_pred: " + avePred;
    assert NoNewline(datestr) && NoNewline(backend) && NoNewline(mAP) && NoNewline(avePred) ==> NoNewline(text) by {
      if NoNewline(datestr) && NoNewline(backend) && NoNewline(mAP) && NoNewline(avePred) {
        NoNewlineJoin(datestr, " Model: ");
        NoNewlineJoin(datestr + " Model: ", backend);
        NoNewlineJoin(datestr + " Model: " + backend, " mAP: ");
        NoNewlineJoin(datestr + " Model: " + backend + " mAP: ", mAP);
        NoNewlineJoin(datestr + " Model: " + backend + " mAP: " + mAP, "ave_pred: ");
        NoNewlineJoin(datestr + " Model: " + backend + " mAP: " + mAP + "ave_pred: ", avePred);
      }
    }
    assert (text + "\n")[..|text|] == text;
    text + "\n"
  }

  /** The summary line of src/models/keras_yolo2/train.py: no space after
      "mAP:" and no ave_pred field. */
  function KerasSummaryLine(datestr: string, backend: string, mAP: string): (line: string)
    ensures |line| == |datestr| + |backend| + |mAP| + 14
    ensures line[..|datestr|] == datestr
    ensures line[|datestr|..][..8] == " Model: "
    ensures line[|datestr| + 8..][..|backend|] == backend
    ensures line[|datestr| + 8 + |backend|..][..5] == " mAP:"
    ensures line[|datestr| + 8 + |backend| + 5..][..|mAP|] == mAP
    ensures line[|line| - 1] == '\n'
    ensures NoNewline(datestr) && NoNewline(backend) && NoNewline(mAP) ==> NoNewline(line[..|line| - 1])
  {
    datestr + " Model: " + backend + " mAP:" + mAP + "\n"
  }

  /** A configuration document: top-level sections in order, each with its
      entries in order; `str(value)` is taken as given. */
  datatype Section = Section(name: string, entries: seq<(string, string)>)

  /** The lines of the configuration dump, without their newlines: each
      section's name, then one "key: value" line per entry. */
  function ConfigLines(config: seq<Section>): (lines: seq<string>)
  {
    if |config| == 0 then []
    else
      [config[0].name]
      + EntryLines(config[0].entries)
      + ConfigLines(config[1..])
  }

  /** One "key: value" line per entry. */
  function EntryLines(entries: seq<(string, string)>): (lines: seq<string>)
    ensures |lines| == |entries|
  {
    seq(|entries|, e requires 0 <= e < |entries| => entries[e].0 + ": " + entries[e].1)
  }

  /** Terminates each line with a newline and concatenates them. */
  function JoinLines(lines: seq<string>): (s: string)
  {
    if |lines| == 0 then "" else lines[0] + "\n" + JoinLines(lines[1..])
  }

  /** The text written after the summary line into the per-run file. */
  function ConfigDump(config: seq<Section>): (s: string)
  {
    if |config| == 0 then ""
    else
      config[0].name + "\n" + EntryDump(config[0].entries) + ConfigDump(config[1..])
  }

  function EntryDump(entries: seq<(string, string)>): (s: string)
  {
    if |entries| == 0 then ""
    else entries[0].0 + ": " + entries[0].1 + "\n" + EntryDump(entries[1..])
  }

  /** Line count of the dump: one per section plus one per entry. */
  function EntryCount(config: seq<Section>): nat
  {
    if |config| == 0 then 0 else |config[0].entries| + EntryCount(config[1..])
  }

  lemma {:induction false} EntryDumpIsJoin(entries: seq<(string, string)>)
    ensures EntryDump(entries) == JoinLines(EntryLines(entries))
  {
    if |entries| > 0 {
      EntryDumpIsJoin(entries[1..]);
      assert EntryLines(entries)[1..] == EntryLines(entries[1..]);
    }
  }

  lemma {:induction false} JoinLinesAppend(a: seq<string>, b: seq<string>)
    ensures JoinLines(a + b) == JoinLines(a) + JoinLines(b)
    decreases |a|
  {
    if |a| > 0 {
      assert (a + b)[1..] == a[1..] + b;
      JoinLinesAppend(a[1..], b);
    } else {
      assert a + b == b;
    }
  }

  /** The dump is the section and entry lines, each ended by a newline,
      and there are exactly as many as sections plus entries. */
  lemma {:induction false} ConfigDumpIsLines(config: seq<Section>)
    ensures ConfigDump(config) == JoinLines(ConfigLines(config))
    ensures |ConfigLines(config)| == |config| + EntryCount(config)
  {
    if |config| > 0 {
      var s := config[0];
      var entryLines := EntryLines(s.entries);
      ConfigDumpIsLines(config[1..]);
      EntryDumpIsJoin(s.entries);
      var rest := ConfigLines(config[1..]);
      assert ConfigLines(config) == ([s.name] + entryLines) + rest;
      JoinLinesAppend([s.name] + entryLines, rest);
      JoinLinesAppend([s.name], entryLines);
      assert JoinLines([s.name]) == s.name + "\n" by {
        assert [s.name][1..] == [];
        assert s.name + "\n" + "" == s.name + "\n";
      }
      calc {
        JoinLines(ConfigLines(config));
      ==
        JoinLines([s.name] + entryLines) + JoinLines(rest);
      ==
        (s.name + "\n" + EntryDump(s.entries)) + ConfigDump(config[1..]);
      ==
        ConfigDump(config);
      }
    }
  }

  /** Position of the first `ch` in `s`, or -1. */
  function Find(s: string, ch: char): (r: int)
    ensures -1 <= r < |s|
    ensures r >= 0 ==> s[r] == ch
    ensures forall k | 0 <= k < |s| && (r == -1 || k < r) :: s[k] != ch
  {
    if |s| == 0 then -1
    else if s[0] == ch then 0
    else
      var r := Find(s[1..], ch);
      assert forall k | 1 <= k < |s| :: s[k] == s[1..][k - 1];
      if r == -1 then -1 else r + 1
  }

  /** Reads newline-terminated text back as its lines (the reader of a
      log file). */
  function SplitLines(s: string): (lines: seq<string>)
    decreases |s|
  {
    if |s| == 0 then []
    else
      var i := Find(s, '\n');
      if i == -1 then [s] else [s[..i]] + SplitLines(s[i + 1..])
  }

  /** Round trip: reading back text written by `JoinLines` gives the same
      lines, provided no line contains a newline. */
  lemma {:induction false} SplitJoinLines(lines: seq<string>)
    requires forall k | 0 <= k < |lines| :: NoNewline(lines[k])
    ensures SplitLines(JoinLines(lines)) == lines
  {
    if |lines| > 0 {
      var rest := JoinLines(lines[1..]);
      assert JoinLines(lines) == lines[0] + "\n" + rest;
      FirstLine(lines[0], rest);
      SplitJoinLines(lines[1..]);
    }
  }

  /** A newline-free line followed by a newline is read back first, and
      reading resumes right after its newline. */
  lemma FirstLine(first: string, rest: string)
    requires NoNewline(first)
    ensures SplitLines(first + "\n" + rest) == [first] + SplitLines(rest)
  {
    var s := first + "\n" + rest;
    assert s[|first|] == '\n';
    assert forall k | 0 <= k < |first| :: s[k] == first[k];
    assert Find(s, '\n') == |first|;
    assert s[..|first|] == first;
    assert s[|first| + 1..] == rest;
  }

  /** The configuration dump reads back as one line per section name
      followed by its "key: value" lines, when names, keys and values hold
      no newline. */
  lemma ConfigDumpReadsBack(config: seq<Section>)
    requires forall p | 0 <= p < |config| :: NoNewline(config[p].name)
    requires forall p, e | 0 <= p < |config| && 0 <= e < |config[p].entries| ::
      NoNewline(config[p].entries[e].0) && NoNewline(config[p].entries[e].1)
    ensures SplitLines(ConfigDump(config)) == ConfigLines(config)
    ensures |SplitLines(ConfigDump(config))| == |config| + EntryCount(config)
  {
    ConfigDumpIsLines(config);
    ConfigLinesNoNewline(config);
    SplitJoinLines(ConfigLines(config));
  }

  lemma {:induction false} ConfigLinesNoNewline(config: seq<Section>)
    requires forall p | 0 <= p < |config| :: NoNewline(config[p].name)
    requires forall p, e | 0 <= p < |config| && 0 <= e < |config[p].entries| ::
      NoNewline(config[p].entries[e].0) && NoNewline(config[p].entries[e].1)
    ensures forall k | 0 <= k < |ConfigLines(config)| :: NoNewline(ConfigLines(config)[k])
  {
    if |config| > 0 {
      var s := config[0];
      assert forall e | 0 <= e < |s.entries| :: NoNewline(EntryLines(s.entries)[e]) by {
        forall e | 0 <= e < |s.entries| ensures NoNewline(EntryLines(s.entries)[e]) {
          assert NoNewline(s.entries[e].0) && NoNewline(s.entries[e].1);
        }
      }
      ConfigLinesNoNewline(config[1..]);
    }
  }

  // ---------------------------------------------------------------------
  // Updating the configuration

  /** `d[key]` on a configuration section: the value stored under `key`,
      or None when the key is absent. */
  function Lookup(entries: seq<(string, string)>, key: string): (r: Option<string>)
    ensures r.Some? <==> exists e | 0 <= e < |entries| :: entries[e].0 == key
    ensures r.Some? ==> exists e | 0 <= e < |entries| :: entries[e] == (key, r.value)
  {
    if |entries| == 0 then None
    else if entries[0].0 == key then Some(entries[0].1)
    else
      var r := Lookup(entries[1..], key);
      assert forall e | 1 <= e < |entries| :: entries[e] == entries[1..][e - 1];
      r
  }

  /** `d[key] = value` on an insertion-ordered dictionary: an existing key
      keeps its place and takes the new value; a new key goes at the end. */
  function Assign(entries: seq<(string, string)>, key: string, value: string): (r: seq<(string, string)>)
    ensures |r| == |entries| || r == entries + [(key, value)]
    ensures forall e | 0 <= e < |entries| :: r[e].0 == entries[e].0
  {
    if |entries| == 0 then [(key, value)]
    else if entries[0].0 == key then [(key, value)] + entries[1..]
    else [entries[0]] + Assign(entries[1..], key, value)
  }

  /** Reading a key just assigned gives the new value; every other key
      reads as before. */
  lemma {:induction false} LookupAfterAssign(entries: seq<(string, string)>, key: string, value: string,
                                             other: string)
    ensures Lookup(Assign(entries, key, value), key) == Some(value)
    ensures other != key ==> Lookup(Assign(entries, key, value), other) == Lookup(entries, other)
  {
    if |entries| > 0 && entries[0].0 != key {
      LookupAfterAssign(entries[1..], key, value, other);
      assert ([entries[0]] + Assign(entries[1..], key, value))[1..] == Assign(entries[1..], key, value);
    } else if |entries| > 0 {
      assert ([(key, value)] + entries[1..])[1..] == entries[1..];
    }
  }

  /** `config[name]`: the entries of the first section called `name`. */
  function FindSection(config: seq<Section>, name: string): (r: Option<seq<(string, string)>>)
    ensures r.Some? <==> exists p | 0 <= p < |config| :: config[p].name == name
    ensures r.Some? ==> exists p | 0 <= p < |config| ::
      && config[p].name == name && r.value == config[p].entries
      && forall q | 0 <= q < p :: config[q].name != name
  {
    if |config| == 0 then None
    else if config[0].name == name then Some(config[0].entries)
    else
      assert forall p | 1 <= p < |config| :: config[p] == config[1..][p - 1];
      var r := FindSection(config[1..], name);
      assert r.Some? ==> exists p | 0 <= p < |config| ::
        && config[p].name == name && r.value == config[p].entries
        && forall q | 0 <= q < p :: config[q].name != name
      by {
        if r.Some? {
          var p :| 0 <= p < |config[1..]| && config[1..][p].name == name && r.value == config[1..][p].entries
            && forall q | 0 <= q < p :: config[1..][q].name != name;
          assert config[p + 1] == config[1..][p];
          forall q | 0 <= q < p + 1 ensures config[q].name != name {
            if q > 0 { assert config[q] == config[1..][q - 1]; }
          }
        }
      }
      r
  }

  /** `config['model']['labels'] = value`: the empty-labels fallback
      stores the seen labels back into the configuration it later dumps. */
  function SetModelLabels(config: seq<Section>, value: string): (r: seq<Section>)
    ensures |r| == |config|
    ensures forall p | 0 <= p < |config| :: r[p].name == config[p].name
  {
    if |config| == 0 then []
    else if config[0].name == "model" then [Section("model", Assign(config[0].entries, "labels", value))] + config[1..]
    else [config[0]] + SetModelLabels(config[1..], value)
  }

  /** After the fallback, `config['model']['labels']` reads as the new
      value; every other entry and every other section reads as before. */
  lemma {:induction false} SetModelLabelsEffect(config: seq<Section>, value: string, name: string, key: string)
    requires FindSection(config, "model").Some?
    ensures FindSection(SetModelLabels(config, value), "model").Some?
    ensures Lookup(FindSection(SetModelLabels(config, value), "model").value, "labels") == Some(value)
    ensures key != "labels" ==>
      Lookup(FindSection(SetModelLabels(config, value), "model").value, key) ==
      Lookup(FindSection(config, "model").value, key)
    ensures name != "model" ==> FindSection(SetModelLabels(config, value), name) == FindSection(config, name)
  {
    var r := SetModelLabels(config, value);
    if config[0].name == "model" {
      var entries := Assign(config[0].entries, "labels", value);
      LookupAfterAssign(config[0].entries, "labels", value, key);
      assert r == [Section("model", entries)] + config[1..];
      assert FindSection(r, "model") == Some(entries);
      assert r[1..] == config[1..];
    } else {
      assert FindSection(config, "model") == FindSection(config[1..], "model");
      SetModelLabelsEffect(config[1..], value, name, key);
      assert r == [config[0]] + SetModelLabels(config[1..], value);
      assert r[1..] == SetModelLabels(config[1..], value);
      assert FindSection(r, "model") == FindSection(r[1..], "model");
    }
  }

  // ---------------------------------------------------------------------
  // One run of a training script

  datatype Script = YoloScript | KerasScript

  /** What a script is given: the parsed annotations, the configuration
      and the outcomes of the checks and calls it makes. */
  datatype RunInputs<T> = RunInputs(
    trainImgs: seq<T>,          // images parsed from the training annotations
    seenLabels: seq<string>,    // keys of the seen-label counts, in order
    configuredLabels: seq<string>,
    validFolderExists: bool,
    parsedValid: seq<T>,        // images parsed from the validation annotations
    shuffled: seq<T>,           // the training images after `np.random.shuffle`
    weightsExist: bool,
    datestr: string,
    backend: string,
    mAP: string,                // str() of the metrics the detector returns
    avePred: string,
    seenLabelsText: string,     // str() of the seen-label keys
    config: seq<Section>)

  datatype RunResult<T> =
    | Aborted
    | Trained(sets: ImageSets<T>, labels: seq<string>, loadsWeights: bool,
              logLine: string, runFile: string)

  /** The validation annotation folder a script tests with
      `os.path.exists`: src/models/train_yolo.py puts the working directory
      and a '/' in front of the configured folder, while
      src/models/keras_yolo2/train.py tests the configured folder as given. */
  function ProbedFolder(script: Script, cwd: string, folder: string): (p: string)
    ensures script == KerasScript ==> p == folder
    ensures script == YoloScript ==> |p| == |cwd| + 1 + |folder| && p[|cwd|] == '/' && p[|cwd| + 1..] == folder
  {
    match script
    case YoloScript => cwd + "/" + folder
    case KerasScript => folder
  }

  /** The probed strings always differ. For a relative folder both name
      the same directory when run from `cwd`; for an absolute folder they
      name different directories, so the existence results may differ. */
  lemma ProbedFoldersDiffer(cwd: string, folder: string)
    ensures ProbedFolder(YoloScript, cwd, folder) != ProbedFolder(KerasScript, cwd, folder)
    ensures |ProbedFolder(KerasScript, cwd, folder)| < |ProbedFolder(YoloScript, cwd, folder)|
  {
  }

  function SummaryLine<T>(script: Script, inp: RunInputs<T>): string {
    match script
    case YoloScript => YoloSummaryLine(inp.datestr, inp.backend, inp.mAP, inp.avePred)
    case KerasScript => KerasSummaryLine(inp.datestr, inp.backend, inp.mAP)
  }

  /** The configuration as it is dumped: with no configured labels the
      fallback has stored the seen labels under `model.labels`. */
  function DumpedConfig<T>(inp: RunInputs<T>): (r: seq<Section>)
    ensures |r| == |inp.config|
    ensures forall p | 0 <= p < |r| :: r[p].name == inp.config[p].name
  {
    if |inp.configuredLabels| > 0 then inp.config else SetModelLabels(inp.config, inp.seenLabelsText)
  }

  /** The control flow of `main` / `_main_`: choose the image sets, check
      the labels (stopping before the detector is built), load weights when
      the file exists, then append the summary line to the cumulative log and
      write the summary line plus the configuration dump to the run file. */
  function TrainingRun<T>(script: Script, inp: RunInputs<T>): (r: RunResult<T>)
    requires multiset(inp.shuffled) == multiset(inp.trainImgs)
    ensures r == Aborted <==>
      |inp.configuredLabels| > 0 &&
      !(NoDuplicates(inp.configuredLabels) &&
        forall k | 0 <= k < |inp.configuredLabels| :: inp.configuredLabels[k] in inp.seenLabels)
    ensures r.Trained? ==>
      && r.sets == ChooseImageSets(inp.trainImgs, inp.validFolderExists, inp.parsedValid, inp.shuffled)
      && r.labels == (if |inp.configuredLabels| > 0 then inp.configuredLabels else inp.seenLabels)
      && r.loadsWeights == inp.weightsExist
      && r.logLine == SummaryLine(script, inp)
      && r.runFile == r.logLine + ConfigDump(DumpedConfig(inp))
      && multiset(r.sets.train) + multiset(r.sets.valid) ==
           (if inp.validFolderExists then multiset(inp.trainImgs) + multiset(inp.parsedValid)
            else multiset(inp.trainImgs))
  {
    var sets := ChooseImageSets(inp.trainImgs, inp.validFolderExists, inp.parsedValid, inp.shuffled);
    match CheckLabels(inp.configuredLabels, inp.seenLabels)
    case Abort => Aborted
    case Proceed(labels) =>
      var line := SummaryLine(script, inp);
      Trained(sets, labels, inp.weightsExist, line, line + ConfigDump(DumpedConfig(inp)))
  }

  /** With no configured labels, the run file's configuration shows the
      seen labels under `model.labels`; with configured labels it is the
      configuration as loaded. */
  lemma DumpShowsTrainedLabels<T>(inp: RunInputs<T>)
    requires FindSection(inp.config, "model").Some?
    ensures |inp.configuredLabels| == 0 ==>
      Lookup(FindSection(DumpedConfig(inp), "model").value, "labels") == Some(inp.seenLabelsText)
    ensures |inp.configuredLabels| > 0 ==> DumpedConfig(inp) == inp.config
  {
    if |inp.configuredLabels| == 0 {
      SetModelLabelsEffect(inp.config, inp.seenLabelsText, "model", "labels");
    }
  }

  /** Given the same existence results and parsed annotations, the two
      scripts decide the same things and write the same configuration dump;
      only the summary line differs. The scripts probe different paths for
      the same configured folder (see ProbedFoldersDiffer), so this
      agreement is conditional on the inputs being equal. */
  lemma ScriptsAgree<T>(inp: RunInputs<T>)
    requires multiset(inp.shuffled) == multiset(inp.trainImgs)
    ensures TrainingRun(YoloScript, inp).Aborted? == TrainingRun(KerasScript, inp).Aborted?
    ensures TrainingRun(YoloScript, inp).Trained? ==>
      var y, k := TrainingRun(YoloScript, inp), TrainingRun(KerasScript, inp);
      && y.sets == k.sets && y.labels == k.labels && y.loadsWeights == k.loadsWeights
      && |y.logLine| <= |y.runFile| && |k.logLine| <= |k.runFile|
      && y.runFile[|y.logLine|..] == k.runFile[|k.logLine|..]
  {
  }
}
